=== FILE: README.md ===
# IIIF image server: request grammar and `convert` command line

A Dafny model of the core of a small IIIF Image API server written in Go.
The server answers requests of the form
`/{prefix}/{identifier}/{region}/{size}/{rotation}/{quality}.{format}` by
running ImageMagick's `convert` on `images/{identifier}.{format}`. The model
covers the following parts of the server:

- **Segment parsers** (`Params`). There is one total parser per path segment.
  Each returns a typed region, size or rotation, or the error text the server
  reports. The Go `interface{}` results become closed datatypes.
- **Request assembly and source path** (`Request`). `imageReq` assembles the
  request and `toPath` names the source image.
- **The argument builder `buildArgs`** (`Args`). It is a pure function of the
  request, the probed `identify` result and the configured memory limit. It
  returns one clause per transformation, always in the order crop, resize,
  rotate, colour, memory limit, output. The clauses are flattened into tokens.
- **Passing the command line to `convert`** (`Argv`). `buildArgs` builds the
  command line as one space-separated string with `Sprintf`. The handler trims
  that string, splits it at every space and passes the pieces to `convert`.
- **The format probe `getFormats`** (`Formats`). It filters the supported
  formats by an abstract file-exists predicate and keeps their order.
- **Rounding** (`Rounding`). The server's `round` helper, and the
  percent-to-pixel crop offset derived from it.
- **Number parsing and formatting** (`Numbers`). The decimal subset of
  `strconv.ParseInt` and `strconv.ParseFloat`, and the `%d` and `%f`
  renderings.
- **Non-finite floats** (`FloatSpecials`). The `nan` and `inf` spellings that
  `strconv.ParseFloat` also accepts, Go's comparisons on them, and the rotation
  range check as written over float64 values.
- **Worked samples** (`Vectors`). The size table of the server's test file,
  sample regions and rotations, and whole requests.

Supporting modules: `Results` (Option, Result and the error values with their
messages) and `Text` (prefix, index, split, join and trim on strings).

## Model

| member | source | states |
|---|---|---|
| Params.Member | main.go:791-802 | the linear scan finds `s` exactly when `s` is in the list |
| Params.ParseIdentifier | main.go:633-638 | an identifier is accepted, unchanged, exactly when it holds none of `/?#[]@%`; otherwise the illegal-characters error |
| Params.ParseQuality | main.go:791-802 | accepted, unchanged, exactly for color, gray, bitonal and default; otherwise the invalid-quality error |
| Params.ParseFormat | main.go:804-817 | accepted, unchanged, exactly for the seven formats of the supported list; otherwise the invalid-format error |
| Params.FillSlotsOutcome | main.go:645-686 | the region fill loop succeeds exactly when at most four parts remain and all are good. Each slot then holds its part's value or its old value. A bad part among the first five gives the region error. Five good parts give the index panic |
| Params.ParseRegion | main.go:640-690 | `full` and only `full` is the full region; a percent region needs the `pct:` prefix; a pixel region needs a comma; anything else is the region error; the only errors are the region error and the index panic |
| Params.ParseRegionChecked | main.go:640-690 | accepts exactly what the region parser accepts, with the same value; every failure, the overrun included, is the region error |
| Params.ParseWidthHeight | main.go:820-845 | succeeds exactly when there are two comma parts and both are 64-bit integers; the result holds their values; otherwise the width/height error |
| Params.ParseSize | main.go:693-763 | which prefix or shape each size form needs: `full`, `pct:`, `!`, a comma. Text with none of these is the size error, and so is a comma with both halves empty. Only the size and width/height errors occur |
| Params.ParseRotation | main.go:765-789 | accepted degrees lie in [0, 360] and are the payload's value; mirrored exactly when prefixed by `!`; an unreadable payload and an out-of-range angle each give their own error, in both directions |
| FloatSpecials.ParseGoFloat | main.go:776 | a decimal numeral keeps its value; a non-finite result comes only from text that is not a decimal numeral |
| FloatSpecials.SpecialSpellings | main.go:776 | `nan` in any letter case is NaN; `inf` or `infinity` in any case, with an optional sign, is the infinity of that sign |
| FloatSpecials.ParseRotationAsWritten | main.go:765-789 | the rotation parser as written over float64 values: it accepts exactly NaN and the finite angles in [0, 360]; an unparsable payload and only that gives the parse error; the flag is the `!` prefix |
| FloatSpecials.NaNPassesRangeCheck | main.go:781-788 | `nan` and `!NaN` pass the range check and come back as NaN rotations, while `inf` is out of range |
| FloatSpecials.ParseRotationSpecial | main.go:776-783 | the corrected rotation parser accepts exactly the finite angles in [0, 360]; NaN and infinities are out of range; an unparsable payload and only that gives the parse error |
| FloatSpecials.DecimalRotationAgrees | main.go:765-789 | on a decimal payload the corrected parser gives the same result as `Params.ParseRotation` |
| FloatSpecials.SpecialsOutOfRange | main.go:781-783 | the corrected parser reports `nan`, `!NaN` and `inf` as out of range |
| FloatSpecials.OverflowIsParseError | main.go:776-778 | a run of digits beyond the float64 bound is the parse error for the as-written and the corrected rotation parser |
| GrammarFacts.RegionOutcome | main.go:640-690 | for every non-full region with a prefix or comma, the input condition for each of the three outcomes: region error, index panic, success |
| GrammarFacts.RegionCheckedOutcome | main.go:640-690 | the checked parser succeeds exactly when there are at most four parts and all are good; every other such region is the region error |
| GrammarFacts.RegionExactOfFourIntegers | main.go:666-686 | `x,y,w,h` with four integers is the pixel region with those values |
| GrammarFacts.RegionExactOfTwoIntegers | main.go:666-686 | `x,y` alone is accepted and the missing width and height are zero |
| GrammarFacts.RegionPercentOfFourNumbers | main.go:645-664 | `pct:x,y,w,h` with four decimals is the percent region with those values |
| GrammarFacts.FiveIntegersOverrun | main.go:666-686 | five integers make the parser as written index past its four slots; the checked parser reports a region error |
| GrammarFacts.WidthHeightShape | main.go:820-845 | an accepted pair has exactly one comma with text on both sides |
| GrammarFacts.WidthHeightRoundTrip | main.go:395-401 | the probe's `%w,%h` output of any two 64-bit integers reads back as the same pair |
| GrammarFacts.SizeWidthOnly | main.go:743-750 | `w,` is a width-only size of that width |
| GrammarFacts.SizeHeightOnly | main.go:752-759 | `,h` is a height-only size of that height |
| GrammarFacts.SizeExactOfPair | main.go:732-741 | `w,h` with two integers forces both dimensions |
| GrammarFacts.SizeBestFitOfPair | main.go:715-725 | `!w,h` with two integers is the best-fit size |
| GrammarFacts.SizePercentOf | main.go:700-712 | `pct:n` is the percent size of the decimal after the colon |
| GrammarFacts.OverflowUnparsable | main.go:652-654 | a run of digits beyond the float64 bound is the parse error as a rotation, as a `pct:` size and as a `pct:` region |
| GrammarFacts.OverflowRotation | main.go:776-778 | a digit-led payload that `strconv.ParseFloat` rejects is the rotation parse error |
| GrammarFacts.OverflowPercentSize | main.go:700-708 | a `pct:` size whose number `strconv.ParseFloat` rejects is the size parse error |
| GrammarFacts.OverflowPercentRegion | main.go:645-654 | a one-part `pct:` region whose number `strconv.ParseFloat` rejects is the region parse error |
| GrammarFacts.SizePairsNeedBothHalves | main.go:715-741 | every accepted exact or best-fit size has exactly one comma with text on both sides |
| GrammarFacts.SizeCommaAlone | main.go:728-762 | `,` alone is the size error |
| GrammarFacts.RotationOfPayload | main.go:765-789 | an in-range payload decides the angle; the `!` prefix alone decides mirroring |
| GrammarFacts.RotationRoundTrip | main.go:493-503 | every in-range angle with at most six decimals, rendered with `%f` bare or after `!`, reads back as the same standard or mirrored rotation |
| Numbers.ParseInt | main.go:674 | an accepted integer lies in the 64-bit range; its text starts with a sign or digit, does not end in a sign, and holds no comma, point or colon |
| Numbers.ParseIntOfFormatInt | main.go:421-427 | the `%d` rendering of every 64-bit integer parses back to it |
| Numbers.ParseFloat | main.go:776-778 | a numeral is accepted exactly when its magnitude is below 2^1024 - 2^970, the float64 range error bound, and every accepted value lies strictly inside that bound; an accepted text is not empty and holds no comma or colon |
| Numbers.ParseFloatOfDigits | main.go:652 | a run of decimal digits reads as that whole number while it is below the float64 range error bound, and is the range error from there on |
| Numbers.OverflowNumeral | main.go:776-778 | the numeral of 10^320, a one and 320 zeros, is well formed but is the range error |
| Numbers.ParseFloatOfFormatFixed | main.go:432-439 | the `%f` rendering of every value with at most six decimals parses back to it, negative values included, and is the range error beyond the float64 bound |
| Rounding.Round | main.go:849-854 | the result is within one half of the argument; a tie goes away from zero |
| Rounding.PercentOffset | main.go:430-431 | the crop offset of a percent region is an integer within one half of the exact offset `dim * pct / 100` |
| Rounding.RoundIsTheNearestInteger | main.go:849-854 | `round` is the one and only nearest integer with ties away from zero |
| Rounding.RoundIsOdd | main.go:849-854 | rounding commutes with negation |
| Rounding.PercentOffsetInRange | main.go:430-431 | a percentage in [0, 100] of a non-negative dimension gives an offset within that dimension |
| Request.PathRoundTrip | main.go:68-70 | a source path splits back into its identifier and format when the format has no dot; the identifier may contain dots |
| Request.ToPath | main.go:68-70 | the source path is `images/`, then the identifier, a dot and the format, and has exactly their combined length |
| Request.ToPathInjective | main.go:68-70 | two requests for supported formats name the same file exactly when identifier and format agree |
| Request.ParseImageRequest | main.go:560-631 | as written: a request is built exactly when all six segments parse. It carries the raw identifier, quality and format and the parsed region, size and rotation, and it is well formed. Failures come in URL order: the first three segments report generic messages, the last three the parser's own error. A region overrun stops the request with the index panic |
| Request.ParseImageRequestChecked | main.go:560-631 | the same request parser with the checked region parser: the overrun becomes the generic region failure, the index panic never occurs, and every other outcome is the as-written one |
| Args.BoxRoundTrip | main.go:419-427 | the rendered pixel crop `WxH+X+Y` of any four 64-bit integers reads back as the same box |
| Args.Render | main.go:419-483 | every crop and resize geometry renders as one non-empty word without a space |
| Args.BuildClauses | main.go:404-536 | clauses are built exactly for the four known qualities; otherwise the unrecognized-quality error. They appear in stage order, at most one per stage, and end with the output clause for the request's path and format |
| Args.CropStage | main.go:416-443 | a crop unless the region is full. A pixel region crops its box. A percent region keeps width and height in percent, with offsets in pixels of the probed size |
| Args.ResizeStage | main.go:444-486 | a resize unless the size is full, with the geometry of each size form |
| Args.RotateStage | main.go:488-507 | a rotation unless it is an unmirrored zero; mirroring adds the flop |
| Args.ColourAndLimitStages | main.go:509-533 | a colour clause only for gray and bitonal, bilevel for bitonal; a memory limit exactly when one is configured; the output last and nothing after it |
| Args.BuildArgs | main.go:404-536 | a failed probe is returned first, then an unknown quality. Otherwise the tokens end with the source path and the format sent to standard output |
| Args.ParsedQualityBuilds | main.go:509-526 | a request whose quality the quality parser accepted gets a command line once the probe succeeds: the unknown-quality branch of the builder cannot be reached from a parsed request |
| Args.PlainRequestArgs | main.go:404-536 | a full, unrotated, default or colour request without a memory limit has only the source path and the output sink as arguments |
| Argv.ArgvRecoversTokens | main.go:306-307 | space-free tokens with non-blank ends survive the join, trim and split exactly |
| Argv.ServerArgv | main.go:306-307 | `convert` gets the builder's error unchanged, or a non-empty vector of arguments, none of which holds a space |
| Argv.ArgvLosesSpacedToken | main.go:306-307 | a token holding a space is never among the pieces `convert` receives |
| Argv.ServerArgvMatchesTokens | main.go:306-307 | when identifier, format and memory limit hold no space, `convert` receives exactly the built tokens |
| Argv.SpaceInIdentifierSplitsPath | main.go:306-307 | when the identifier holds a space, the source path is not among the arguments `convert` receives |
| Argv.PlainSpacedArgv | main.go:306-307 | a plain request for `u v` reaches `convert` as `images/u`, `v.fmt` and the output sink |
| Formats.AvailableMembers | main.go:375-385 | a format is found exactly when it is supported and its file exists |
| Formats.AvailableDistinct | main.go:375-385 | no format is reported twice |
| Formats.AvailableInOrder | main.go:375-385 | found formats keep the order of the supported list |
| Formats.GetFormats | main.go:375-385 | the loop finds each supported format whose file exists, with no repeats, in list order, each accepted by the format parser |
| Vectors.SizeTable | main_test.go:12-17 | each size of the server's test table parses to the expected value |
| Vectors.RegionExactSample | main.go:666-686 | `10,20,30,40` is the pixel region 10, 20, 30, 40 |
| Vectors.RegionShortSample | main.go:666-686 | `10,20` is accepted as the pixel region 10, 20, 0, 0 |
| Vectors.RegionFiveSample | main.go:666-686 | `10,20,30,40,50` overruns the slots as written and is a region error when checked |
| Vectors.RequestFiveSample | main.go:580-583 | the region `10,20,30,40,50` stops request parsing with the index panic as written, and is the region failure when checked |
| Vectors.RotationSamples | main.go:765-789 | `!45` is mirrored 45; `400` and `-5` are out of range; `left` cannot be parsed |
| Vectors.RoundSamples | main.go:849-854 | 2.5 rounds to 3 and -2.5 to -3; 33.35% of 1000 pixels is offset 334 |
| Vectors.PlainRequestSample | main.go:404-536 | the request for `cat` as a full default jpg gives `images/cat.jpg jpg:-` |
| Vectors.PlainRequestParse | main.go:560-631 | the segments `cat/full/full/0/default.jpg` parse to that request |
| Vectors.SpacedIdentifierAccepted | main.go:633-638 | the identifier `a b` passes the identifier check |
| Vectors.SpacedIdentifierSample | main.go:306-307 | a plain request for `a b` reaches `convert` as `images/a`, `b.fmt` and the sink |

## Left out

- HTTP routing, mux variable lookup and the "Failed to parse … from URL" errors for missing variables: the router always supplies the six segments, so `Request.ParseImageRequest` takes them as arguments.
- Response writing, status codes, logging, the md5 cache and the info handler (`infoReq`, `infoResp`): these are I/O, not part of the request grammar.
- Running `identify` (`imgStats`) and `convert`: the probe result enters `Args.BuildArgs` as a `Result<WidthHeight>` parameter, and `convert` is only the receiver of `Argv.ServerArgv`.
- The `CONVERT_MEM_LIMIT` environment variable: it enters `Args.BuildArgs` as the `memLimit` string parameter.
- `os.Stat` in `getFormats`: it is the abstract `fileExists` parameter of `Formats.GetFormats`.
- The job channel and worker concurrency: the model has no concurrency.
- The `default:` branches of the region, size and rotation type switches in `buildArgs`: the closed datatypes make them unreachable.
- Request.ParseImageRequest: the index panic of the region parser is returned as the `IndexOutOfRange` error value. In the server the panic unwinds the handler goroutine, and the model does not follow it past the request parser.
- Numbers.ParseFloat: models only signed decimal numerals (digits with an optional point) as exact reals. The range error for magnitudes of 2^1024 - 2^970 and more is modelled as a failure. Exponents, hexadecimal floats and the float64 rounding of in-range values, including underflow to zero, are left out. The `inf` and `nan` spellings are modelled only by `FloatSpecials.ParseGoFloat`.
- Numbers.ParseInt: models the base-10, 64-bit `strconv.ParseInt` without the kind of error it reports (syntax or range); the server only checks that there is one.
- Params.ParseRotation: reads its payload with `Numbers.ParseFloat`, so it treats `nan`, `inf` and `infinity` as unparsable. Go's `strconv.ParseFloat` accepts `nan` in any letter case and `inf` or `infinity` in any case with an optional sign. NaN passes the test `degrees > 360 || degrees < 0` (main.go:781), so the server returns a NaN rotation (main.go:785-788) and `buildArgs` writes `-rotate NaN` (main.go:491-503); an infinity gives the out-of-range error (main.go:782). The contract's [0, 360] bound, the rotation clause of `Request.WellFormed` and the parse-error equivalence therefore hold over decimal payloads only. `FloatSpecials` models the server's behaviour on these spellings.
- Params.ParseSize: `pct:nan` and `pct:inf` are unparsable in the model, while the server accepts them as a NaN or infinite percentage (main.go:699-711) and passes it to `-resize`.
- Params.ParseRegion: a `pct:` part spelled `nan` or `inf` is unparsable in the model, while the server accepts it (main.go:652-656); the crop offset `int(round(NaN))` (main.go:430-431) has no defined value in Go and is not modelled.
- Numbers.FormatFixed: renders the exact real value rounded half to even at six decimals. It does not model the binary float64 value that Go formats. Reals have no signed zero: the rotation `!-0` parses to Go's -0.0, and `buildArgs` writes `-flop -rotate -0.000000` for it, while the model writes `0.000000`.
- Rounding.Round: works on exact reals, not float64.
- Rounding.PercentOffset: does not model the float64-to-`int` conversion overflow for offsets beyond the 64-bit range.

## Findings

| source | as written | input that shows it | evidently intended | confidence | as-written member | corrected member |
|---|---|---|---|---|---|---|
| main.go:640-690 | the region loops write `parts[i]` into a four-slot array for every comma part | region `10,20,30,40,50` (or `pct:1,2,3,4,5`) | more than four parts is a malformed region, reported as "Couldn't parse region" | high; not executed | GrammarFacts.FiveIntegersOverrun | Params.ParseRegionChecked |
| main.go:776-788 | both comparisons of the range test (above 360, below 0) are false for NaN, and `strconv.ParseFloat` accepts `nan` | rotation `nan` (or `!NaN`) | NaN is an out-of-range angle | high; not executed | FloatSpecials.NaNPassesRangeCheck | FloatSpecials.ParseRotationSpecial |
| main.go:306-307 | the command line is glued into one string and split at every space, but `parseIdentifier` (main.go:633-638) lets a space through | identifier `a b` with format jpg | the source path `images/a b.jpg` reaches `convert` as one argument | medium; not executed | Argv.SpaceInIdentifierSplitsPath | Args.BuildArgs |

- **Region overrun.** The parser as written is `Params.ParseRegion`, which reports the out-of-range index as the `IndexOutOfRange` error. `Vectors.RegionFiveSample` and `Vectors.RequestFiveSample` show the concrete input. `Request.ParseImageRequest` models the request parser as written, so the panic reaches it. `Request.ParseImageRequestChecked` is the corrected request parser: it uses the checked region parser.
- **NaN rotation.** `FloatSpecials.ParseRotationAsWritten` is the rotation parser as written over float64 values, and `FloatSpecials.NaNPassesRangeCheck` shows `nan` getting through. `FloatSpecials.ParseRotationSpecial` is the corrected parser. On decimal payloads it agrees with `Params.ParseRotation`, the rotation parser the rest of the model uses (`FloatSpecials.DecimalRotationAgrees`).
- **Spaced identifier.** The model treats the token list built by `Args.BuildArgs` as the intended argument vector: there, the source path is a single token. `Argv.ServerArgvMatchesTokens` proves that the split is harmless when no space occurs. `Argv.PlainSpacedArgv` and `Vectors.SpacedIdentifierSample` show the split path for `a b`.

=== FILE: args.dfy ===
/** The `convert` command line for an image request (`buildArgs`). The
    server appends one clause per transformation, in a fixed order (crop,
    resize, rotate, colour, memory limit, output); each clause is a few
    space-separated tokens. The model keeps the clauses and their tokens
    apart from the single string the server glues them into, which is the
    subject of the Argv module. */
module Args {
  import opened Results
  import opened Text
  import opened Numbers
  import opened Rounding
  import opened Params
  import opened Request

  /** The ImageMagick geometries the server writes. */
  datatype Geometry =
    | Box(w: int, h: int, x: int, y: int)                  // WxH+X+Y
    | PercentBox(pw: real, ph: real, ox: int, oy: int)     // W%xH+X+Y
    | ToHeight(height: int)                                // xH
    | ToWidth(width: int)                                  // Wx
    | Force(fw: int, fh: int)                              // WxH!
    | Scale(pct: real)                                     // %P
    | Fit(bw: int, bh: int)                                // WxH

  /** `%d` and `%f` as the server formats each geometry: one word, with no
      space at which the command line could be split. */
  function Render(g: Geometry): (r: string)
    ensures r != [] && ' ' !in r
  {
    match g
    case Box(w, h, x, y) =>
      NoSpaceInFormatInt(w); NoSpaceInFormatInt(h); NoSpaceInFormatInt(x); NoSpaceInFormatInt(y);
      FormatInt(w) + "x" + FormatInt(h) + "+" + FormatInt(x) + "+" + FormatInt(y)
    case PercentBox(pw, ph, ox, oy) =>
      NoSpaceInFormatFixed(pw); NoSpaceInFormatFixed(ph); NoSpaceInFormatInt(ox); NoSpaceInFormatInt(oy);
      FormatFixed(pw) + "%x" + FormatFixed(ph) + "+" + FormatInt(ox) + "+" + FormatInt(oy)
    case ToHeight(h) =>
      NoSpaceInFormatInt(h);
      "x" + FormatInt(h)
    case ToWidth(w) =>
      NoSpaceInFormatInt(w);
      FormatInt(w) + "x"
    case Force(w, h) =>
      NoSpaceInFormatInt(w); NoSpaceInFormatInt(h);
      FormatInt(w) + "x" + FormatInt(h) + "!"
    case Scale(p) =>
      NoSpaceInFormatFixed(p);
      "%" + FormatFixed(p)
    case Fit(w, h) =>
      NoSpaceInFormatInt(w); NoSpaceInFormatInt(h);
      FormatInt(w) + "x" + FormatInt(h)
  }

  /** Reads a pixel box `WxH+X+Y` back. */
  function ReadBox(s: string): Option<Geometry>
  {
    var parts := Split(s, '+');
    if |parts| != 3 then None
    else
      var dims := Split(parts[0], 'x');
      if |dims| != 2 then None
      else match (ParseInt(dims[0]), ParseInt(dims[1]), ParseInt(parts[1]), ParseInt(parts[2]))
        case (Some(w), Some(h), Some(x), Some(y)) => Some(Box(w, h, x, y))
        case _ => None
  }

  lemma SplitThree(a: string, b: string, c: string, sep: char)
    requires sep !in a && sep !in b && sep !in c
    ensures Split(a + [sep] + b + [sep] + c, sep) == [a, b, c]
  {
    var parts := [a, b, c];
    assert parts[1..] == [b, c] && [b, c][1..] == [c];
    assert Join([b, c], sep) == b + [sep] + c;
    assert Join(parts, sep) == a + [sep] + (b + [sep] + c);
    assert a + [sep] + (b + [sep] + c) == a + [sep] + b + [sep] + c;
    assert forall k :: 0 <= k < 3 ==> sep !in parts[k];
    SplitOfJoin(parts, sep);
  }

  lemma SplitTwo(a: string, b: string, sep: char)
    requires sep !in a && sep !in b
    ensures Split(a + [sep] + b, sep) == [a, b]
  {
    assert Join([a, b], sep) == a + [sep] + b;
    SplitOfJoin([a, b], sep);
  }

  /** A pixel crop reads back as the same four numbers: the rendering is
      unambiguous for every 64-bit box, negative values included. */
  lemma BoxRoundTrip(w: int, h: int, x: int, y: int)
    requires MinInt64 <= w <= MaxInt64 && MinInt64 <= h <= MaxInt64
    requires MinInt64 <= x <= MaxInt64 && MinInt64 <= y <= MaxInt64
    ensures ReadBox(Render(Box(w, h, x, y))) == Some(Box(w, h, x, y))
  {
    var fw, fh, fx, fy := FormatInt(w), FormatInt(h), FormatInt(x), FormatInt(y);
    NoSpaceInFormatInt(w);
    NoSpaceInFormatInt(h);
    NoSpaceInFormatInt(x);
    NoSpaceInFormatInt(y);
    var dims := fw + ['x'] + fh;
    assert '+' !in dims;
    SplitThree(dims, fx, fy, '+');
    SplitTwo(fw, fh, 'x');
    assert Render(Box(w, h, x, y)) == dims + ['+'] + fx + ['+'] + fy;
    ParseIntOfFormatInt(w);
    ParseIntOfFormatInt(h);
    ParseIntOfFormatInt(x);
    ParseIntOfFormatInt(y);
  }

  /** One transformation of the command line. */
  datatype Clause =
    | Crop(crop: Geometry)
    | Resize(resize: Geometry)
    | Rotate(flop: bool, degrees: real)
    | Colorspace(bilevel: bool)
    | Limit(memory: string)
    | Output(path: string, format: string)

  /** Where each kind of clause goes on the command line. */
  function Stage(c: Clause): nat
  {
    match c
    case Crop(_) => 0
    case Resize(_) => 1
    case Rotate(_, _) => 2
    case Colorspace(_) => 3
    case Limit(_) => 4
    case Output(_, _) => 5
  }

  /** The tokens of one clause; the output clause names the source file and
      sends the converted image to standard output. */
  function Tokens(c: Clause): seq<string>
  {
    match c
    case Crop(g) => ["-crop", Render(g)]
    case Resize(g) => ["-resize", Render(g)]
    case Rotate(flop, d) => (if flop then ["-flop"] else []) + ["-rotate", FormatFixed(d)]
    case Colorspace(bilevel) => ["-colorspace", "Gray"] + (if bilevel then ["-type", "Bilevel"] else [])
    case Limit(m) => ["-limit", "memory", m]
    case Output(path, format) => [path, format + ":-"]
  }

  function Flatten(cs: seq<Clause>): seq<string>
  {
    if cs == [] then [] else Tokens(cs[0]) + Flatten(cs[1..])
  }

  /** The first clause of stage `k`, if any. */
  function Find(cs: seq<Clause>, k: nat): (r: Option<Clause>)
    ensures r.Some? ==> Stage(r.value) == k && r.value in cs
  {
    if cs == [] then None
    else if Stage(cs[0]) == k then Some(cs[0])
    else Find(cs[1..], k)
  }

  /** Clauses in strictly increasing stage order: each kind at most once. */
  ghost predicate Staged(cs: seq<Clause>)
  {
    forall i, j :: 0 <= i < j < |cs| ==> Stage(cs[i]) < Stage(cs[j])
  }

  /** One optional clause per stage, slot `k` holding stage `k`. */
  ghost predicate SlotsInPlace(slots: seq<Option<Clause>>)
  {
    forall k :: 0 <= k < |slots| && slots[k].Some? ==> Stage(slots[k].value) == k
  }

  /** The filled slots, in slot order. */
  function Present(slots: seq<Option<Clause>>): seq<Clause>
  {
    if slots == [] then []
    else
      var last := slots[|slots| - 1];
      Present(slots[..|slots| - 1]) + (if last.Some? then [last.value] else [])
  }

  lemma {:induction false} FindAppend(cs: seq<Clause>, c: Clause, k: nat)
    ensures Find(cs + [c], k) == if Find(cs, k).Some? then Find(cs, k) else if Stage(c) == k then Some(c) else None
    decreases |cs|
  {
    if cs != [] {
      assert (cs + [c])[1..] == cs[1..] + [c];
      FindAppend(cs[1..], c, k);
    }
  }

  /** In a staged list every clause is the one found for its stage. */
  lemma {:induction false} FindStaged(cs: seq<Clause>, i: nat)
    requires Staged(cs) && i < |cs|
    ensures Find(cs, Stage(cs[i])) == Some(cs[i])
    decreases i
  {
    if i > 0 {
      assert Stage(cs[0]) < Stage(cs[i]);
      assert Staged(cs[1..]) by {
        forall a, b | 0 <= a < b < |cs| - 1
          ensures Stage(cs[1..][a]) < Stage(cs[1..][b])
        {
          assert cs[1..][a] == cs[a + 1] && cs[1..][b] == cs[b + 1];
        }
      }
      FindStaged(cs[1..], i - 1);
    }
  }

  lemma SlotsInPlaceOfInit(slots: seq<Option<Clause>>)
    requires slots != [] && SlotsInPlace(slots)
    ensures SlotsInPlace(slots[..|slots| - 1])
  {
    var init := slots[..|slots| - 1];
    forall k | 0 <= k < |init| && init[k].Some?
      ensures Stage(init[k].value) == k
    {
      assert init[k] == slots[k];
    }
  }

  /** Every clause kept from a slot list belongs to one of its stages. */
  lemma {:induction false} PresentBounded(slots: seq<Option<Clause>>)
    requires SlotsInPlace(slots)
    ensures forall c :: c in Present(slots) ==> Stage(c) < |slots|
    decreases |slots|
  {
    if slots != [] {
      SlotsInPlaceOfInit(slots);
      PresentBounded(slots[..|slots| - 1]);
    }
  }

  /** Dropping the empty slots keeps the clauses in stage order. */
  lemma {:induction false} PresentStaged(slots: seq<Option<Clause>>)
    requires SlotsInPlace(slots)
    ensures Staged(Present(slots))
    decreases |slots|
  {
    if slots != [] {
      var n := |slots| - 1;
      var init := slots[..n];
      SlotsInPlaceOfInit(slots);
      PresentStaged(init);
      PresentBounded(init);
      var before := Present(init);
      if slots[n].Some? {
        var c := slots[n].value;
        var cs := before + [c];
        assert Present(slots) == cs;
        forall i, j | 0 <= i < j < |cs|
          ensures Stage(cs[i]) < Stage(cs[j])
        {
          assert cs[i] == before[i] && before[i] in before;
        }
      }
    }
  }

  /** The clause found for each stage is the one in its slot. */
  lemma {:induction false} PresentFind(slots: seq<Option<Clause>>)
    requires SlotsInPlace(slots)
    ensures forall k: nat :: Find(Present(slots), k) == if k < |slots| then slots[k] else None
    decreases |slots|
  {
    if slots != [] {
      var n := |slots| - 1;
      var init := slots[..n];
      SlotsInPlaceOfInit(slots);
      PresentFind(init);
      var before := Present(init);
      if slots[n].Some? {
        var c := slots[n].value;
        assert Present(slots) == before + [c];
        forall k: nat
          ensures Find(Present(slots), k) == if k < |slots| then slots[k] else None
        {
          FindAppend(before, c, k);
          if k < n {
            assert init[k] == slots[k];
          }
        }
      } else {
        assert Present(slots) == before;
        forall k: nat
          ensures Find(Present(slots), k) == if k < |slots| then slots[k] else None
        {
          if k < n {
            assert init[k] == slots[k];
          }
        }
      }
    }
  }

  /** Dropping the empty slots keeps the clauses in stage order, and the
      clause of each stage is the one in its slot. */
  lemma PresentFacts(slots: seq<Option<Clause>>)
    requires SlotsInPlace(slots)
    ensures Staged(Present(slots))
    ensures forall c :: c in Present(slots) ==> Stage(c) < |slots|
    ensures forall k: nat :: Find(Present(slots), k) == if k < |slots| then slots[k] else None
  {
    PresentStaged(slots);
    PresentBounded(slots);
    PresentFind(slots);
  }

  /** `-crop`: none for the full image; a percent box keeps its width and
      height as percentages but turns its offsets into pixels of the probed
      image. */
  function CropClause(region: Region, stats: WidthHeight): Option<Clause>
  {
    match region
    case Full => None
    case Exact(x, y, w, h) => Some(Crop(Box(w, h, x, y)))
    case Percent(px, py, pw, ph) =>
      Some(Crop(PercentBox(pw, ph, PercentOffset(stats.width, px), PercentOffset(stats.height, py))))
  }

  /** `-resize`, one geometry per size form; none for the full size. */
  function ResizeClause(size: Size): Option<Clause>
  {
    match size
    case Full => None
    case Height(h) => Some(Resize(ToHeight(h)))
    case Width(w) => Some(Resize(ToWidth(w)))
    case Exact(w, h) => Some(Resize(Force(w, h)))
    case Percent(p) => Some(Resize(Scale(p)))
    case BestFit(w, h) => Some(Resize(Fit(w, h)))
  }

  /** `-rotate`, preceded by `-flop` when mirrored; an unmirrored zero
      rotation is left out. */
  function RotateClause(rotation: Rotation): Option<Clause>
  {
    match rotation
    case Standard(d) => if d != 0.0 then Some(Rotate(false, d)) else None
    case Mirrored(d) => Some(Rotate(true, d))
  }

  /** `-colorspace Gray`, with `-type Bilevel` for bitonal; an unknown
      quality is an error. */
  function ColourClause(quality: string): Result<Option<Clause>>
  {
    if quality == "default" || quality == "color" then Ok(None)
    else if quality == "gray" then Ok(Some(Colorspace(false)))
    else if quality == "bitonal" then Ok(Some(Colorspace(true)))
    else Err(UnrecognizedQuality)
  }

  /** `-limit memory`, only when a limit is configured. */
  function LimitClause(memLimit: string): Option<Clause>
  {
    if memLimit != "" then Some(Limit(memLimit)) else None
  }

  /** The slots of a request, stage by stage, with the colour clause already
      decided. */
  function Slots(req: ImageReq, stats: WidthHeight, memLimit: string, colour: Option<Clause>)
    : seq<Option<Clause>>
  {
    [CropClause(req.region, stats), ResizeClause(req.size), RotateClause(req.rotation),
     colour, LimitClause(memLimit), Some(Output(ToPath(req), req.format))]
  }

  /** The clauses of a request, given the probed size of its image and the
      configured memory limit: at most one per stage, in stage order, ending
      with the output. */
  function BuildClauses(req: ImageReq, stats: WidthHeight, memLimit: string): (r: Result<seq<Clause>>)
    ensures r.Ok? <==> req.quality in Qualities
    ensures r.Err? ==> r.error == UnrecognizedQuality
    ensures r.Ok? ==> Staged(r.value)
    ensures r.Ok? ==> r.value != [] && r.value[|r.value| - 1] == Output(ToPath(req), req.format)
  {
    match ColourClause(req.quality)
    case Err(e) => Err(e)
    case Ok(colour) =>
      var slots := Slots(req, stats, memLimit, colour);
      assert SlotsInPlace(slots);
      PresentFacts(slots);
      var cs := Present(slots);
      var out := Output(ToPath(req), req.format);
      assert cs == Present(slots[..5]) + [out];
      Ok(cs)
  }

  /** Each stage of a built list holds what the slot for it holds. */
  lemma FindInBuiltClauses(req: ImageReq, stats: WidthHeight, memLimit: string, k: nat)
    requires req.quality in Qualities
    ensures Find(BuildClauses(req, stats, memLimit).value, k)
         == if k < 6 then Slots(req, stats, memLimit, ColourClause(req.quality).value)[k] else None
  {
    var slots := Slots(req, stats, memLimit, ColourClause(req.quality).value);
    assert SlotsInPlace(slots);
    PresentFacts(slots);
  }

  /** A crop unless the region is full; a percent box keeps its size in
      percent and has its offsets in pixels of the probed image. */
  lemma CropStage(req: ImageReq, stats: WidthHeight, memLimit: string)
    requires req.quality in Qualities
    ensures var cs := BuildClauses(req, stats, memLimit).value;
      && (Find(cs, 0).None? <==> req.region.Full?)
      && (req.region.Exact? ==>
            Find(cs, 0) == Some(Crop(Box(req.region.w, req.region.h, req.region.x, req.region.y))))
      && (req.region.Percent? ==>
            Find(cs, 0) == Some(Crop(PercentBox(req.region.pw, req.region.ph,
              PercentOffset(stats.width, req.region.px), PercentOffset(stats.height, req.region.py)))))
  {
    FindInBuiltClauses(req, stats, memLimit, 0);
  }

  /** A resize unless the size is full, one geometry per size form. */
  lemma ResizeStage(req: ImageReq, stats: WidthHeight, memLimit: string)
    requires req.quality in Qualities
    ensures var cs := BuildClauses(req, stats, memLimit).value;
      && (Find(cs, 1).None? <==> req.size.Full?)
      && (req.size.Width? ==> Find(cs, 1) == Some(Resize(ToWidth(req.size.w))))
      && (req.size.Height? ==> Find(cs, 1) == Some(Resize(ToHeight(req.size.h))))
      && (req.size.Exact? ==> Find(cs, 1) == Some(Resize(Force(req.size.w, req.size.h))))
      && (req.size.BestFit? ==> Find(cs, 1) == Some(Resize(Fit(req.size.w, req.size.h))))
      && (req.size.Percent? ==> Find(cs, 1) == Some(Resize(Scale(req.size.pct))))
  {
    FindInBuiltClauses(req, stats, memLimit, 1);
  }

  /** A rotation unless it is an unmirrored zero; mirroring adds the flop. */
  lemma RotateStage(req: ImageReq, stats: WidthHeight, memLimit: string)
    requires req.quality in Qualities
    ensures var cs := BuildClauses(req, stats, memLimit).value;
      && (Find(cs, 2).None? <==> req.rotation == Standard(0.0))
      && (Find(cs, 2).Some? ==> Find(cs, 2) == Some(Rotate(req.rotation.Mirrored?, req.rotation.degrees)))
  {
    FindInBuiltClauses(req, stats, memLimit, 2);
  }

  /** A colour clause for gray and bitonal only, bilevel for bitonal; a
      memory limit exactly when one is configured; nothing past the output. */
  lemma ColourAndLimitStages(req: ImageReq, stats: WidthHeight, memLimit: string)
    requires req.quality in Qualities
    ensures var cs := BuildClauses(req, stats, memLimit).value;
      && (Find(cs, 3).None? <==> req.quality == "default" || req.quality == "color")
      && (Find(cs, 3).Some? ==> Find(cs, 3) == Some(Colorspace(req.quality == "bitonal")))
      && Find(cs, 4) == (if memLimit == "" then None else Some(Limit(memLimit)))
      && Find(cs, 5) == Some(Output(ToPath(req), req.format))
      && forall k: nat :: k > 5 ==> Find(cs, k).None?
  {
    FindInBuiltClauses(req, stats, memLimit, 3);
    FindInBuiltClauses(req, stats, memLimit, 4);
    FindInBuiltClauses(req, stats, memLimit, 5);
    forall k: nat | k > 5
      ensures Find(BuildClauses(req, stats, memLimit).value, k).None?
    {
      FindInBuiltClauses(req, stats, memLimit, k);
    }
  }

  lemma {:induction false} FlattenAppend(cs: seq<Clause>, c: Clause)
    ensures Flatten(cs + [c]) == Flatten(cs) + Tokens(c)
    decreases |cs|
  {
    if cs == [] {
      assert [c][1..] == [];
    } else {
      assert (cs + [c])[1..] == cs[1..] + [c];
      FlattenAppend(cs[1..], c);
    }
  }

  /** `buildArgs`: a failed probe of the source image is returned first, an
      unknown quality next; otherwise the command line is the tokens of the
      clauses in stage order, ending with the source path and the output
      format written to standard output. */
  function BuildArgs(req: ImageReq, stats: Result<WidthHeight>, memLimit: string): (r: Result<seq<string>>)
    ensures stats.Err? ==> r == Err(stats.error)
    ensures stats.Ok? ==> (r.Ok? <==> req.quality in Qualities)
    ensures stats.Ok? && r.Err? ==> r.error == UnrecognizedQuality
    ensures r.Ok? ==> |r.value| >= 2
    ensures r.Ok? ==> r.value[|r.value| - 2] == ToPath(req) && r.value[|r.value| - 1] == req.format + ":-"
  {
    match stats
    case Err(e) => Err(e)
    case Ok(wh) =>
      match BuildClauses(req, wh, memLimit)
      case Err(e) => Err(e)
      case Ok(cs) =>
        var n := |cs| - 1;
        assert cs == cs[..n] + [cs[n]];
        FlattenAppend(cs[..n], cs[n]);
        Ok(Flatten(cs))
  }

  /** A request for the whole image at full size, unrotated, in its default
      or colour quality, without a memory limit, only names the source and
      the output format. */
  lemma PlainRequestArgs(req: ImageReq, stats: WidthHeight)
    requires req.region.Full? && req.size.Full? && req.rotation == Standard(0.0)
    requires req.quality == "default" || req.quality == "color"
    ensures BuildArgs(req, Ok(stats), "") == Ok([ToPath(req), req.format + ":-"])
  {
    var cs := BuildClauses(req, stats, "").value;
    CropStage(req, stats, "");
    ResizeStage(req, stats, "");
    RotateStage(req, stats, "");
    ColourAndLimitStages(req, stats, "");
    assert cs == [Output(ToPath(req), req.format)];
    assert cs[1..] == [];
    assert Flatten(cs) == Tokens(cs[0]) + Flatten(cs[1..]);
    assert BuildArgs(req, Ok(stats), "") == Ok(Flatten(cs));
    assert Flatten(cs[1..]) == [];
    assert Tokens(cs[0]) == [ToPath(req), req.format + ":-"];
    assert Flatten(cs) == [ToPath(req), req.format + ":-"];
  }

  /** The builder's unknown-quality error is unreachable for a quality the
      quality parser accepted: once the probe succeeds, the command line is
      always built. */
  lemma ParsedQualityBuilds(req: ImageReq, stats: WidthHeight, memLimit: string)
    requires ParseQuality(req.quality).Ok?
    ensures BuildArgs(req, Ok(stats), memLimit).Ok?
  {
  }
}

=== FILE: argv.dfy ===
/** How the command line reaches `convert`: `buildArgs` glues the tokens
    into one string, each preceded by a space, and the handler trims that
    string and splits it at every space. The round trip is exact only while
    no token holds a space; a request identifier may hold one. */
module Argv {
  import opened Results
  import opened Text
  import opened Numbers
  import opened Params
  import opened Request
  import opened Args

  /** The string `buildArgs` accumulates: every token preceded by a space. */
  function ArgString(tokens: seq<string>): string
  {
    if tokens == [] then "" else " " + tokens[0] + ArgString(tokens[1..])
  }

  /** `strings.Split(strings.TrimSpace(args), " ")`, the vector `convert`
      receives. */
  function ConvertArgv(args: string): seq<string>
  {
    Split(TrimSpace(args), ' ')
  }

  /** The accumulated string is a space and then the tokens joined by
      spaces. */
  lemma {:induction false} ArgStringIsJoin(tokens: seq<string>)
    requires tokens != []
    ensures ArgString(tokens) == " " + Join(tokens, ' ')
    decreases |tokens|
  {
    if |tokens| > 1 {
      ArgStringIsJoin(tokens[1..]);
    } else {
      assert tokens[1..] == [];
    }
  }

  lemma JoinFirst(tokens: seq<string>, sep: char)
    requires tokens != [] && tokens[0] != []
    ensures Join(tokens, sep) != [] && Join(tokens, sep)[0] == tokens[0][0]
  {
  }

  lemma {:induction false} JoinLast(tokens: seq<string>, sep: char)
    requires tokens != [] && tokens[|tokens| - 1] != []
    ensures var j := Join(tokens, sep); var t := tokens[|tokens| - 1]; j != [] && j[|j| - 1] == t[|t| - 1]
    decreases |tokens|
  {
    if |tokens| > 1 {
      JoinLast(tokens[1..], sep);
    }
  }

  /** One leading space before a string whose ends are not white space
      is all that trimming removes. */
  lemma TrimSpaceOfSpaced(j: string)
    requires j != [] && !IsSpace(j[0]) && !IsSpace(j[|j| - 1])
    ensures TrimSpace(" " + j) == j
  {
    assert (" " + j)[1..] == j;
    assert TrimLeftSpace(" " + j) == TrimLeftSpace(j);
    TrimSpaceOfTrimmed(j);
  }

  /** Trimming the accumulated string leaves the tokens joined by spaces
      when the first and last characters are not white space. */
  lemma TrimArgString(tokens: seq<string>)
    requires tokens != []
    requires tokens[0] != [] && !IsSpace(tokens[0][0])
    requires tokens[|tokens| - 1] != [] && !IsSpace(tokens[|tokens| - 1][|tokens[|tokens| - 1]| - 1])
    ensures TrimSpace(ArgString(tokens)) == Join(tokens, ' ')
  {
    var j := Join(tokens, ' ');
    ArgStringIsJoin(tokens);
    JoinFirst(tokens, ' ');
    JoinLast(tokens, ' ');
    TrimSpaceOfSpaced(j);
  }

  /** Tokens without spaces, the first not starting and the last not ending
      in white space, come back from the trim and split exactly. */
  lemma ArgvRecoversTokens(tokens: seq<string>)
    requires tokens != []
    requires forall k :: 0 <= k < |tokens| ==> ' ' !in tokens[k]
    requires tokens[0] != [] && !IsSpace(tokens[0][0])
    requires tokens[|tokens| - 1] != [] && !IsSpace(tokens[|tokens| - 1][|tokens[|tokens| - 1]| - 1])
    ensures ConvertArgv(ArgString(tokens)) == tokens
  {
    TrimArgString(tokens);
    SplitOfJoin(tokens, ' ');
  }

  /** A token holding a space never survives: every piece of the split is
      space-free. */
  lemma ArgvLosesSpacedToken(tokens: seq<string>, k: nat)
    requires k < |tokens| && ' ' in tokens[k]
    ensures ConvertArgv(ArgString(tokens)) != tokens
    ensures tokens[k] !in ConvertArgv(ArgString(tokens))
  {
  }

  /** The vector the server hands to `convert` for a request: the builder's
      error, or at least one argument, none holding a space. */
  function ServerArgv(req: ImageReq, stats: Result<WidthHeight>, memLimit: string): (r: Result<seq<string>>)
    ensures r.Err? <==> BuildArgs(req, stats, memLimit).Err?
    ensures r.Err? ==> r.error == BuildArgs(req, stats, memLimit).error
    ensures r.Ok? ==> r.value != [] && forall k :: 0 <= k < |r.value| ==> ' ' !in r.value[k]
  {
    match BuildArgs(req, stats, memLimit)
    case Err(e) => Err(e)
    case Ok(tokens) => Ok(ConvertArgv(ArgString(tokens)))
  }

  /** The text a clause carries from outside the server. */
  predicate SpaceFreeClause(c: Clause)
  {
    match c
    case Limit(m) => ' ' !in m
    case Output(path, format) => ' ' !in path && ' ' !in format
    case _ => true
  }

  lemma NoSpaceInTokens(c: Clause)
    requires SpaceFreeClause(c)
    ensures forall k :: 0 <= k < |Tokens(c)| ==> ' ' !in Tokens(c)[k]
    ensures c.Output? || (Tokens(c)[0] != [] && Tokens(c)[0][0] == '-')
  {
    match c
    case Rotate(_, d) => NoSpaceInFormatFixed(d);
    case _ =>
  }

  lemma {:induction false} NoSpaceInFlatten(cs: seq<Clause>)
    requires forall i :: 0 <= i < |cs| ==> SpaceFreeClause(cs[i])
    ensures forall k :: 0 <= k < |Flatten(cs)| ==> ' ' !in Flatten(cs)[k]
    decreases |cs|
  {
    if cs != [] {
      NoSpaceInTokens(cs[0]);
      NoSpaceInFlatten(cs[1..]);
    }
  }

  /** Every clause of a request whose identifier, format and memory limit
      hold no space is free of spaces. */
  lemma BuiltClausesSpaceFree(req: ImageReq, stats: WidthHeight, memLimit: string)
    requires req.quality in Qualities
    requires ' ' !in req.identifier && ' ' !in req.format && ' ' !in memLimit
    ensures var cs := BuildClauses(req, stats, memLimit).value;
      forall i :: 0 <= i < |cs| ==> SpaceFreeClause(cs[i])
  {
    var cs := BuildClauses(req, stats, memLimit).value;
    assert ' ' !in ToPath(req);
    forall i | 0 <= i < |cs|
      ensures SpaceFreeClause(cs[i])
    {
      FindStaged(cs, i);
      ColourAndLimitStages(req, stats, memLimit);
    }
  }

  /** The first argument is a flag or the source path: never white space at
      its head. */
  lemma FirstTokenHead(cs: seq<Clause>, path: string, format: string)
    requires cs != [] && SpaceFreeClause(cs[0])
    requires cs[0].Output? ==> cs[0] == Output(path, format) && path != [] && path[0] == 'i'
    ensures Flatten(cs) != [] && Flatten(cs)[0] != [] && !IsSpace(Flatten(cs)[0][0])
  {
    NoSpaceInTokens(cs[0]);
    assert Flatten(cs)[0] == Tokens(cs[0])[0];
  }

  /** When neither the identifier, the format nor the memory limit holds a
      space, `convert` receives exactly the built tokens. */
  lemma ServerArgvMatchesTokens(req: ImageReq, stats: Result<WidthHeight>, memLimit: string)
    requires BuildArgs(req, stats, memLimit).Ok?
    requires ' ' !in req.identifier && ' ' !in req.format && ' ' !in memLimit
    ensures ServerArgv(req, stats, memLimit) == BuildArgs(req, stats, memLimit)
  {
    var cs := BuildClauses(req, stats.value, memLimit).value;
    assert BuildArgs(req, stats, memLimit) == Ok(Flatten(cs));
    BuiltClausesSpaceFree(req, stats.value, memLimit);
    NoSpaceInFlatten(cs);
    assert ToPath(req)[0] == 'i';
    FirstTokenHead(cs, ToPath(req), req.format);
    ArgvRecoversTokens(Flatten(cs));
    assert ServerArgv(req, stats, memLimit) == Ok(ConvertArgv(ArgString(Flatten(cs))));
  }

  /** An identifier holding a space reaches `convert` as two arguments: the
      source path is not among them. */
  lemma SpaceInIdentifierSplitsPath(req: ImageReq, stats: Result<WidthHeight>, memLimit: string)
    requires BuildArgs(req, stats, memLimit).Ok? && ' ' in req.identifier
    ensures ServerArgv(req, stats, memLimit).Ok?
    ensures ServerArgv(req, stats, memLimit) != BuildArgs(req, stats, memLimit)
    ensures ToPath(req) !in ServerArgv(req, stats, memLimit).value
  {
    var tokens := BuildArgs(req, stats, memLimit).value;
    assert ' ' in ToPath(req) by {
      var i :| 0 <= i < |req.identifier| && req.identifier[i] == ' ';
      assert ToPath(req)[7 + i] == req.identifier[i];
    }
    assert tokens[|tokens| - 2] == ToPath(req);
    ArgvLosesSpacedToken(tokens, |tokens| - 2);
    assert ServerArgv(req, stats, memLimit) == Ok(ConvertArgv(ArgString(tokens)));
  }

  /** A token `x y` contributes to the accumulated string exactly what the
      two tokens `x` and `y` would. */
  lemma ArgStringOfSpacedToken(x: string, y: string, rest: seq<string>)
    ensures ArgString([x + " " + y] + rest) == ArgString([x, y] + rest)
  {
    var joined := [x + " " + y] + rest;
    var apart := [x, y] + rest;
    assert joined[1..] == rest;
    assert apart[1..] == [y] + rest && ([y] + rest)[1..] == rest;
  }

  /** The path of identifier `u v` accumulates as `images/u` and `v.fmt`. */
  lemma SpacedPathArgString(u: string, v: string, format: string)
    ensures ArgString([ImagePath(u + " " + v, format), format + ":-"])
         == ArgString(["images/" + u, v + "." + format, format + ":-"])
  {
    var p1: string := "images/" + u;
    var p2: string := v + "." + format;
    var sink: string := format + ":-";
    assert ImagePath(u + " " + v, format) == p1 + " " + p2;
    assert [p1 + " " + p2, sink] == [p1 + " " + p2] + [sink];
    assert [p1, p2, sink] == [p1, p2] + [sink];
    ArgStringOfSpacedToken(p1, p2, [sink]);
  }

  /** The three space-free arguments of a split plain request come back
      unchanged. */
  lemma SpacedPartsRecovered(u: string, v: string, format: string)
    requires ' ' !in u && ' ' !in v && ' ' !in format
    ensures var parts := ["images/" + u, v + "." + format, format + ":-"];
      ConvertArgv(ArgString(parts)) == parts
  {
    var p1: string := "images/" + u;
    var p2: string := v + "." + format;
    var sink: string := format + ":-";
    assert p1[0] == 'i' && sink[|sink| - 1] == '-';
    ArgvRecoversTokens([p1, p2, sink]);
  }

  /** A plain request for `u v` reaches `convert` as `images/u`, `v.fmt` and
      the output sink. */
  lemma PlainSpacedArgv(req: ImageReq, stats: WidthHeight, u: string, v: string)
    requires req.region.Full? && req.size.Full? && req.rotation == Standard(0.0)
    requires req.quality == "default" || req.quality == "color"
    requires req.identifier == u + " " + v && ' ' !in u && ' ' !in v && ' ' !in req.format
    ensures ServerArgv(req, Ok(stats), "") == Ok(["images/" + u, v + "." + req.format, req.format + ":-"])
  {
    PlainRequestArgs(req, stats);
    SpacedPathArgString(u, v, req.format);
    SpacedPartsRecovered(u, v, req.format);
  }
}

=== FILE: float_specials.dfy ===
/** The non-finite values `strconv.ParseFloat` also accepts: `nan` and an
    optionally signed `inf` or `infinity`, in any letter case. They matter to
    the rotation range check, whose two comparisons are both false for NaN. */
module FloatSpecials {
  import opened Results
  import opened Text
  import opened Numbers
  import opened Params

  /** A float64 value as far as the range check can tell: a finite number,
      NaN, or an infinity with its sign. */
  datatype GoFloat = Finite(value: real) | NaN | Inf(negative: bool)

  function Lower(c: char): char
  {
    if 'A' <= c <= 'Z' then (c as int + 32) as char else c
  }

  function LowerAll(s: string): (t: string)
    ensures |t| == |s|
  {
    if s == [] then [] else [Lower(s[0])] + LowerAll(s[1..])
  }

  /** A decimal numeral holds only digits, a point and signs. */
  lemma DecimalChars(s: string)
    requires ParseFloat(s).Some?
    ensures forall i :: 0 <= i < |s| ==> IsDigit(s[i]) || s[i] == '.' || s[i] == '+' || s[i] == '-'
  {
    var (neg, body) := SplitSign(s);
    assert s == body || (s[0] in "+-" && s[1..] == body);
    if '.' in body {
      var k := IndexOf(body, '.');
      assert body == body[..k] + ['.'] + body[k + 1..];
      assert forall i :: 0 <= i < |body| ==> IsDigit(body[i]) || body[i] == '.' by {
        forall i | 0 <= i < |body|
          ensures IsDigit(body[i]) || body[i] == '.'
        {
          if i < k {
            assert body[i] == body[..k][i];
          } else if i > k {
            assert body[i] == body[k + 1..][i - k - 1];
          }
        }
      }
    }
  }

  /** `strconv.ParseFloat(s, 64)` with the specials: decimal numerals as
      before, `nan` without a sign, and a signed or unsigned infinity. */
  function ParseGoFloat(s: string): (r: Option<GoFloat>)
    ensures ParseFloat(s).Some? ==> r == Some(Finite(ParseFloat(s).value))
    ensures r.Some? && !r.value.Finite? ==> ParseFloat(s).None?
  {
    match ParseFloat(s)
    case Some(v) => Some(Finite(v))
    case None =>
      if LowerAll(s) == "nan" then Some(NaN)
      else if LowerAll(SplitSign(s).1) in ["inf", "infinity"] then Some(Inf(SplitSign(s).0))
      else None
  }

  /** `nan` in any letter case is NaN, and `inf` or `infinity` in any case,
      after an optional sign, is the infinity of that sign. */
  lemma SpecialSpellings(s: string)
    ensures LowerAll(s) == "nan" ==> ParseGoFloat(s) == Some(NaN)
    ensures LowerAll(SplitSign(s).1) in ["inf", "infinity"] ==> ParseGoFloat(s) == Some(Inf(SplitSign(s).0))
  {
    if ParseFloat(s).Some? {
      DecimalChars(s);
      assert s != [] && LowerAll(s)[0] == Lower(s[0]) != 'n';
      var body := SplitSign(s).1;
      assert body == s || (s[0] in "+-" && body == s[1..]);
      if body != [] {
        assert LowerAll(body)[0] == Lower(body[0]);
        assert body[0] == s[0] || body[0] == s[1];
        assert LowerAll(body)[0] != 'i';
      }
    }
  }

  /** Go's `>` and `<` against a finite bound: every comparison with NaN is
      false, and an infinity lies beyond every bound on its side. */
  predicate Above(f: GoFloat, bound: real)
  {
    match f
    case Finite(v) => v > bound
    case NaN => false
    case Inf(negative) => !negative
  }

  predicate Below(f: GoFloat, bound: real)
  {
    match f
    case Finite(v) => v < bound
    case NaN => false
    case Inf(negative) => negative
  }

  /** The values the range check lets through. */
  predicate PassesRangeCheck(d: GoFloat)
  {
    d.NaN? || (d.Finite? && 0.0 <= d.value <= 360.0)
  }

  /** `parseRotation` as written, on float64 values: the mirroring flag and
      the degrees, or the error. */
  function ParseRotationAsWritten(s: string): (r: Result<(bool, GoFloat)>)
    ensures r == Err(CouldNotParseRotation) <==> ParseGoFloat(RotationPayload(s)).None?
    ensures r.Ok? <==>
      (ParseGoFloat(RotationPayload(s)).Some? && PassesRangeCheck(ParseGoFloat(RotationPayload(s)).value))
    ensures r.Ok? ==> r.value.0 == HasPrefix(s, "!") && ParseGoFloat(RotationPayload(s)) == Some(r.value.1)
    ensures r.Err? ==> r.error == CouldNotParseRotation || r.error == DegreesOutOfRange
  {
    var mirrored := HasPrefix(s, "!");
    match ParseGoFloat(RotationPayload(s))
    case None => Err(CouldNotParseRotation)
    case Some(d) =>
      if Above(d, 360.0) || Below(d, 0.0) then Err(DegreesOutOfRange)
      else Ok((mirrored, d))
  }

  /** NaN passes the range check, bare or mirrored, while an infinity is
      out of range. */
  lemma NaNPassesRangeCheck()
    ensures ParseRotationAsWritten("nan") == Ok((false, NaN))
    ensures ParseRotationAsWritten("!NaN") == Ok((true, NaN))
    ensures ParseRotationAsWritten("inf") == Err(DegreesOutOfRange)
  {
    assert LowerAll("nan") == "nan" && LowerAll("NaN") == "nan";
    SpecialSpellings("nan");
    SpecialSpellings("NaN");
    assert SplitSign("inf") == (false, "inf") && LowerAll("inf") == "inf";
    SpecialSpellings("inf");
    var m: string := "!NaN";
    assert HasPrefix(m, "!") && RotationPayload(m) == "NaN";
  }

  /** A run of digits too large for float64 is the parse error, as written
      and corrected alike. */
  lemma OverflowIsParseError(t: string)
    requires t != [] && AllDigits(t) && DigitsValue(t) as real >= FloatOverflow
    ensures ParseRotationAsWritten(t) == Err(CouldNotParseRotation)
    ensures ParseRotationSpecial(t) == Err(CouldNotParseRotation)
  {
    ParseFloatOfDigits(t);
    assert IsDigit(t[0]) && !HasPrefix(t, "!") && SplitSign(t).1 == t;
    assert LowerAll(t)[0] == Lower(t[0]) && Lower(t[0]) == t[0];
  }

  /** The rotation parser with non-finite degrees rejected as out of range:
      it accepts exactly the finite angles in [0, 360]. */
  function ParseRotationSpecial(s: string): (r: Result<Rotation>)
    ensures r.Ok? <==>
      (ParseGoFloat(RotationPayload(s)).Some?
       && ParseGoFloat(RotationPayload(s)).value.Finite?
       && 0.0 <= ParseGoFloat(RotationPayload(s)).value.value <= 360.0)
    ensures r.Ok? ==> 0.0 <= r.value.degrees <= 360.0
    ensures r.Ok? ==>
      ((r.value.Mirrored? <==> HasPrefix(s, "!"))
       && ParseGoFloat(RotationPayload(s)) == Some(Finite(r.value.degrees)))
    ensures r == Err(CouldNotParseRotation) <==> ParseGoFloat(RotationPayload(s)).None?
    ensures r.Err? ==> r.error == CouldNotParseRotation || r.error == DegreesOutOfRange
  {
    match ParseRotationAsWritten(s)
    case Err(e) => Err(e)
    case Ok((mirrored, d)) =>
      if d.Finite? then Ok(if mirrored then Mirrored(d.value) else Standard(d.value))
      else Err(DegreesOutOfRange)
  }

  /** On decimal payloads the corrected parser is the decimal rotation
      parser the rest of the model uses. */
  lemma DecimalRotationAgrees(s: string)
    requires ParseFloat(RotationPayload(s)).Some?
    ensures ParseRotationSpecial(s) == ParseRotation(s)
  {
  }

  /** NaN and infinity are out of range for the corrected parser. */
  lemma SpecialsOutOfRange()
    ensures ParseRotationSpecial("nan") == Err(DegreesOutOfRange)
    ensures ParseRotationSpecial("!NaN") == Err(DegreesOutOfRange)
    ensures ParseRotationSpecial("inf") == Err(DegreesOutOfRange)
  {
    NaNPassesRangeCheck();
  }
}

=== FILE: formats.dfy ===
/** `getFormats`: which of the supported formats exist on disk for an
    identifier. The file system is a parameter: `fileExists` answers for a
    path whether `os.Stat` succeeds on it. */
module Formats {
  import opened Results
  import opened Params
  import opened Request

  /** The path `getFormats` probes, relative to the working directory. */
  function StatPath(identifier: string, format: string): string
  {
    "./" + ImagePath(identifier, format)
  }

  /** Reference definition: the formats of `fs` whose file exists, in the
      order of `fs`. */
  function Available(fs: seq<string>, identifier: string, fileExists: string -> bool): seq<string>
  {
    if fs == [] then []
    else
      var last := fs[|fs| - 1];
      Available(fs[..|fs| - 1], identifier, fileExists)
        + (if fileExists(StatPath(identifier, last)) then [last] else [])
  }

  ghost predicate NoDuplicates(s: seq<string>)
  {
    forall i, j :: 0 <= i < j < |s| ==> s[i] != s[j]
  }

  /** Where `f` stands in `s`, counting from the back. */
  function Position(s: seq<string>, f: string): (i: nat)
    requires f in s
    ensures i < |s| && s[i] == f
  {
    if s[|s| - 1] == f then |s| - 1
    else
      assert f in s[..|s| - 1] by {
        var k :| 0 <= k < |s| && s[k] == f;
        assert s[..|s| - 1][k] == f;
      }
      Position(s[..|s| - 1], f)
  }

  /** Every element of `a` occurs in `b`, and in the same order. */
  ghost predicate InOrderOf(a: seq<string>, b: seq<string>)
  {
    forall i, j :: 0 <= i < j < |a| ==> a[i] in b && a[j] in b && Position(b, a[i]) < Position(b, a[j])
  }

  /** The filter keeps exactly the formats of `fs` whose file exists. */
  lemma {:induction false} AvailableMembers(fs: seq<string>, identifier: string, fileExists: string -> bool)
    ensures forall f :: f in Available(fs, identifier, fileExists) <==> f in fs && fileExists(StatPath(identifier, f))
    decreases |fs|
  {
    if fs != [] {
      var init := fs[..|fs| - 1];
      AvailableMembers(init, identifier, fileExists);
      assert fs == init + [fs[|fs| - 1]];
    }
  }

  lemma NoDuplicatesOfInit(fs: seq<string>)
    requires fs != [] && NoDuplicates(fs)
    ensures NoDuplicates(fs[..|fs| - 1]) && fs[|fs| - 1] !in fs[..|fs| - 1]
  {
    var init := fs[..|fs| - 1];
    forall i, j | 0 <= i < j < |init|
      ensures init[i] != init[j]
    {
      assert init[i] == fs[i] && init[j] == fs[j];
    }
    forall i | 0 <= i < |init|
      ensures init[i] != fs[|fs| - 1]
    {
      assert init[i] == fs[i];
    }
  }

  /** A list without repeats gives a filtered list without repeats. */
  lemma {:induction false} AvailableDistinct(fs: seq<string>, identifier: string, fileExists: string -> bool)
    requires NoDuplicates(fs)
    ensures NoDuplicates(Available(fs, identifier, fileExists))
    decreases |fs|
  {
    if fs != [] {
      var init := fs[..|fs| - 1];
      var last := fs[|fs| - 1];
      NoDuplicatesOfInit(fs);
      AvailableDistinct(init, identifier, fileExists);
      AvailableMembers(init, identifier, fileExists);
      var before := Available(init, identifier, fileExists);
      assert last !in before;
    }
  }

  /** The filter keeps the order of `fs`. */
  lemma {:induction false} AvailableInOrder(fs: seq<string>, identifier: string, fileExists: string -> bool)
    requires NoDuplicates(fs)
    ensures InOrderOf(Available(fs, identifier, fileExists), fs)
    decreases |fs|
  {
    if fs != [] {
      var init := fs[..|fs| - 1];
      var last := fs[|fs| - 1];
      NoDuplicatesOfInit(fs);
      AvailableInOrder(init, identifier, fileExists);
      AvailableMembers(init, identifier, fileExists);
      var before := Available(init, identifier, fileExists);
      assert forall f :: f in init ==> Position(fs, f) == Position(init, f) < |init|;
      var found := Available(fs, identifier, fileExists);
      if fileExists(StatPath(identifier, last)) {
        assert found == before + [last];
        forall i, j | 0 <= i < j < |found|
          ensures found[i] in fs && found[j] in fs && Position(fs, found[i]) < Position(fs, found[j])
        {
          assert found[i] == before[i] && before[i] in before;
          if j < |before| {
            assert found[j] == before[j] && before[j] in before;
          }
        }
      } else {
        assert found == before;
        forall i, j | 0 <= i < j < |found|
          ensures found[i] in fs && found[j] in fs && Position(fs, found[i]) < Position(fs, found[j])
        {
          assert found[i] in before && found[j] in before;
        }
      }
    }
  }

  lemma ValidFormatsDistinct()
    ensures NoDuplicates(ValidFormats)
  {
  }

  /** `getFormats`: probes every supported format in order and keeps those
      whose file exists. */
  method GetFormats(identifier: string, fileExists: string -> bool) returns (found: seq<string>)
    ensures found == Available(ValidFormats, identifier, fileExists)
    ensures forall f :: f in found <==> f in ValidFormats && fileExists(StatPath(identifier, f))
    ensures NoDuplicates(found)
    ensures InOrderOf(found, ValidFormats)
    ensures forall f :: f in found ==> ParseFormat(f) == Ok(f)
  {
    found := [];
    var i := 0;
    while i < |ValidFormats|
      invariant 0 <= i <= |ValidFormats|
      invariant found == Available(ValidFormats[..i], identifier, fileExists)
    {
      var format := ValidFormats[i];
      var path := StatPath(identifier, format);
      if fileExists(path) {
        found := found + [format];
      }
      assert ValidFormats[..i + 1][..i] == ValidFormats[..i];
      i := i + 1;
    }
    assert ValidFormats[..i] == ValidFormats;
    ValidFormatsDistinct();
    AvailableMembers(ValidFormats, identifier, fileExists);
    AvailableDistinct(ValidFormats, identifier, fileExists);
    AvailableInOrder(ValidFormats, identifier, fileExists);
  }
}

=== FILE: grammar_facts.dfy ===
/** What the segment parsers accept and produce, stated over all inputs:
    the shapes each branch recognises, the values it yields, and the
    round trips through the renderings the server itself uses. */
module GrammarFacts {
  import opened Results
  import opened Text
  import opened Numbers
  import opened Params

  /** A comma part of region `s` that the fill loop accepts. */
  ghost predicate RegionPartOk(s: string, p: string)
  {
    if HasPrefix(s, "pct:") then GoodPart(p, ParseFloat) else GoodPart(p, ParseInt)
  }

  /** Outcome of a non-full region with a `pct:` prefix or a comma: an empty
      or unparsable part among the first five is a region error, five good
      parts or more overrun the four slots, and otherwise the missing parts
      are zero. */
  lemma RegionOutcome(s: string)
    requires s != "full" && (HasPrefix(s, "pct:") || ',' in s)
    ensures ParseRegion(s) == Err(CouldNotParseRegion) <==>
      exists k :: 0 <= k < |RegionParts(s)| && k <= 4 && !RegionPartOk(s, RegionParts(s)[k])
    ensures ParseRegion(s) == Err(IndexOutOfRange) <==>
      |RegionParts(s)| > 4 && forall k :: 0 <= k <= 4 ==> RegionPartOk(s, RegionParts(s)[k])
    ensures ParseRegion(s).Ok? <==>
      |RegionParts(s)| <= 4 && forall k :: 0 <= k < |RegionParts(s)| ==> RegionPartOk(s, RegionParts(s)[k])
  {
    var parts := RegionParts(s);
    if HasPrefix(s, "pct:") {
      assert forall k :: 0 <= k < |parts| ==> (RegionPartOk(s, parts[k]) <==> GoodPart(parts[k], ParseFloat));
      FillSlotsOutcome(parts, ParseFloat, [0.0, 0.0, 0.0, 0.0], 0);
      assert ParseRegion(s) == PercentRegion(s[4..]);
    } else {
      assert forall k :: 0 <= k < |parts| ==> (RegionPartOk(s, parts[k]) <==> GoodPart(parts[k], ParseInt));
      FillSlotsOutcome(parts, ParseInt, [0, 0, 0, 0], 0);
      assert ParseRegion(s) == ExactRegion(s);
    }
  }

  /** The checked region parser accepts exactly the regions with at most
      four parts, all good, and reports every other one as a region error. */
  lemma RegionCheckedOutcome(s: string)
    requires s != "full" && (HasPrefix(s, "pct:") || ',' in s)
    ensures ParseRegionChecked(s).Ok? <==>
      |RegionParts(s)| <= 4 && forall k :: 0 <= k < |RegionParts(s)| ==> RegionPartOk(s, RegionParts(s)[k])
    ensures ParseRegionChecked(s).Err? ==> ParseRegionChecked(s) == Err(CouldNotParseRegion)
  {
    RegionOutcome(s);
  }

  lemma JoinFour(a: string, b: string, c: string, d: string)
    ensures Join([a, b, c, d], ',') == a + "," + b + "," + c + "," + d
  {
    assert [a, b, c, d][1..] == [b, c, d];
    assert [b, c, d][1..] == [c, d];
    assert [c, d][1..] == [d];
    assert Join([c, d], ',') == c + [','] + d;
    assert Join([b, c, d], ',') == b + [','] + (c + [','] + d);
    assert Join([a, b, c, d], ',') == a + [','] + (b + [','] + (c + [','] + d));
  }

  /** Four good parts fill the four slots in order. */
  lemma FillFour<T>(parts: seq<string>, parse: string -> Option<T>, zero: seq<T>)
    requires |parts| == 4 && |zero| == 4
    requires GoodPart(parts[0], parse) && GoodPart(parts[1], parse)
    requires GoodPart(parts[2], parse) && GoodPart(parts[3], parse)
    ensures FillSlots(parts, parse, zero, 0)
         == Ok([parse(parts[0]).value, parse(parts[1]).value, parse(parts[2]).value, parse(parts[3]).value])
  {
    var v0, v1, v2, v3 := parse(parts[0]).value, parse(parts[1]).value, parse(parts[2]).value, parse(parts[3]).value;
    var s1 := zero[0 := v0];
    var s2 := s1[1 := v1];
    var s3 := s2[2 := v2];
    var s4 := s3[3 := v3];
    assert FillSlots(parts, parse, s4, 4) == Ok(s4);
    assert FillSlots(parts, parse, s3, 3) == Ok(s4);
    assert FillSlots(parts, parse, s2, 2) == Ok(s4);
    assert FillSlots(parts, parse, s1, 1) == Ok(s4);
    assert FillSlots(parts, parse, zero, 0) == Ok(s4);
    assert s4 == [v0, v1, v2, v3];
  }

  lemma SplitFour(a: string, b: string, c: string, d: string)
    requires ',' !in a && ',' !in b && ',' !in c && ',' !in d
    ensures Split(a + "," + b + "," + c + "," + d, ',') == [a, b, c, d]
  {
    JoinFour(a, b, c, d);
    SplitOfJoin([a, b, c, d], ',');
  }

  lemma PercentRegionOfSlots(body: string, v: seq<real>)
    requires FillSlots(Split(body, ','), ParseFloat, [0.0, 0.0, 0.0, 0.0], 0) == Ok(v)
    ensures PercentRegion(body) == Ok(Region.Percent(v[0], v[1], v[2], v[3]))
  {
  }

  lemma PercentRegionOfFour(a: string, b: string, c: string, d: string)
    requires ParseFloat(a).Some? && ParseFloat(b).Some? && ParseFloat(c).Some? && ParseFloat(d).Some?
    ensures PercentRegion(a + "," + b + "," + c + "," + d)
         == Ok(Region.Percent(ParseFloat(a).value, ParseFloat(b).value, ParseFloat(c).value, ParseFloat(d).value))
  {
    var s := a + "," + b + "," + c + "," + d;
    var v := [ParseFloat(a).value, ParseFloat(b).value, ParseFloat(c).value, ParseFloat(d).value];
    assert FillSlots(Split(s, ','), ParseFloat, [0.0, 0.0, 0.0, 0.0], 0) == Ok(v) by {
      SplitFour(a, b, c, d);
      FillFour([a, b, c, d], ParseFloat, [0.0, 0.0, 0.0, 0.0]);
    }
    PercentRegionOfSlots(s, v);
  }

  lemma PercentPrefixBranch(j: string)
    requires |j| > 0
    ensures ParseRegion("pct:" + j) == PercentRegion(j)
  {
    var s := "pct:" + j;
    assert s[4..] == j && s[..4] == "pct:";
  }

  /** `pct:` and four numbers give the percent box, in x, y, w, h order. */
  lemma RegionPercentOfFourNumbers(a: string, b: string, c: string, d: string)
    requires ParseFloat(a).Some? && ParseFloat(b).Some? && ParseFloat(c).Some? && ParseFloat(d).Some?
    ensures ParseRegion("pct:" + (a + "," + b + "," + c + "," + d))
         == Ok(Region.Percent(ParseFloat(a).value, ParseFloat(b).value, ParseFloat(c).value, ParseFloat(d).value))
  {
    PercentRegionOfFour(a, b, c, d);
    PercentPrefixBranch(a + "," + b + "," + c + "," + d);
  }

  /** Four integer parts, without the prefix, give the pixel box. */
  lemma RegionExactOfParts(s: string, parts: seq<string>)
    requires s != "full" && !HasPrefix(s, "pct:")
    requires Split(s, ',') == parts && |parts| == 4
    requires forall k :: 0 <= k < 4 ==> ParseInt(parts[k]).Some?
    ensures ParseRegion(s) == Ok(Region.Exact(ParseInt(parts[0]).value, ParseInt(parts[1]).value,
                                              ParseInt(parts[2]).value, ParseInt(parts[3]).value))
  {
    assert ',' in s;
    assert ParseRegion(s) == ExactRegion(s);
    FillFour(parts, ParseInt, [0, 0, 0, 0]);
  }

  lemma RegionExactOfFourIntegers(a: string, b: string, c: string, d: string)
    requires ParseInt(a).Some? && ParseInt(b).Some? && ParseInt(c).Some? && ParseInt(d).Some?
    ensures ParseRegion(a + "," + b + "," + c + "," + d)
         == Ok(Region.Exact(ParseInt(a).value, ParseInt(b).value, ParseInt(c).value, ParseInt(d).value))
  {
    var s := a + "," + b + "," + c + "," + d;
    assert s != "full" && !HasPrefix(s, "pct:") by {
      assert s[0] == a[0];
    }
    assert Split(s, ',') == [a, b, c, d] by {
      SplitFour(a, b, c, d);
    }
    RegionExactOfParts(s, [a, b, c, d]);
  }

  /** Two integer parts, without the prefix, give a pixel box at that
      offset whose width and height stay zero. */
  lemma RegionExactOfTwoParts(s: string, parts: seq<string>)
    requires s != "full" && !HasPrefix(s, "pct:")
    requires Split(s, ',') == parts && |parts| == 2
    requires ParseInt(parts[0]).Some? && ParseInt(parts[1]).Some?
    ensures ParseRegion(s) == Ok(Region.Exact(ParseInt(parts[0]).value, ParseInt(parts[1]).value, 0, 0))
  {
    assert ',' in s;
    assert ParseRegion(s) == ExactRegion(s);
    FillSlotsOutcome(parts, ParseInt, [0, 0, 0, 0], 0);
  }

  /** `x,y` alone: the missing width and height are zero. */
  lemma RegionExactOfTwoIntegers(a: string, b: string)
    requires ParseInt(a).Some? && ParseInt(b).Some?
    ensures ParseRegion(a + "," + b) == Ok(Region.Exact(ParseInt(a).value, ParseInt(b).value, 0, 0))
  {
    var s := a + "," + b;
    assert s != "full" && !HasPrefix(s, "pct:") by {
      assert s[0] == a[0];
    }
    assert Split(s, ',') == [a, b] by {
      assert Join([a, b], ',') == s;
      SplitOfJoin([a, b], ',');
    }
    RegionExactOfTwoParts(s, [a, b]);
  }

  /** A width/height pair has exactly one comma, with text on both sides. */
  lemma WidthHeightShape(s: string)
    requires ParseWidthHeight(s).Ok?
    ensures exists k :: 0 < k < |s| - 1 && s[k] == ',' && ',' !in s[..k] && ',' !in s[k + 1..]
  {
    var k := IndexOf(s, ',');
    var parts := Split(s, ',');
    assert parts == [s[..k]] + Split(s[k + 1..], ',');
    assert |Split(s[k + 1..], ',')| == 1;
    assert ',' !in s[k + 1..];
    assert parts[0] == s[..k] && parts[1] == s[k + 1..];
    assert 0 < k < |s| - 1;
  }

  /** The probe's `%w,%h` output reads back as the same pair. */
  lemma WidthHeightRoundTrip(w: int, h: int)
    requires MinInt64 <= w <= MaxInt64 && MinInt64 <= h <= MaxInt64
    ensures ParseWidthHeight(FormatInt(w) + "," + FormatInt(h)) == Ok(WidthHeight(w, h))
  {
    ParseIntOfFormatInt(w);
    ParseIntOfFormatInt(h);
    var parts := [FormatInt(w), FormatInt(h)];
    assert Join(parts, ',') == FormatInt(w) + "," + FormatInt(h);
    SplitOfJoin(parts, ',');
  }

  /** Text starting with a comma, a sign or a digit takes none of the
      `full`, `pct:` and `!` branches of the size parser. */
  lemma PlainSizeStart(s: string)
    requires s != [] && (s[0] == ',' || s[0] == '+' || s[0] == '-' || IsDigit(s[0]))
    ensures s != "full" && !HasPrefix(s, "pct:") && !HasPrefix(s, "!")
  {
  }

  /** `w,` is a width-only size: the empty half is absent, not zero. */
  lemma SizeWidthOnly(w: string)
    requires ParseInt(w).Some?
    ensures ParseSize(w + ",") == Ok(Width(ParseInt(w).value))
  {
    var s := w + ",";
    assert Join([w, ""], ',') == s;
    SplitOfJoin([w, ""], ',');
    assert s[0] == w[0] && s[|w|] == ',';
    PlainSizeStart(s);
  }

  /** `,h` is a height-only size. */
  lemma SizeHeightOnly(h: string)
    requires ParseInt(h).Some?
    ensures ParseSize("," + h) == Ok(Height(ParseInt(h).value))
  {
    var s := "," + h;
    assert Join(["", h], ',') == s;
    SplitOfJoin(["", h], ',');
    assert s[0] == ',';
    PlainSizeStart(s);
  }

  /** Two integers joined by a comma are a width/height pair. */
  lemma PairOfIntegers(w: string, h: string)
    requires ParseInt(w).Some? && ParseInt(h).Some?
    ensures ParseWidthHeight(w + "," + h) == Ok(WidthHeight(ParseInt(w).value, ParseInt(h).value))
    ensures Split(w + "," + h, ',') == [w, h]
  {
    assert Join([w, h], ',') == w + "," + h;
    SplitOfJoin([w, h], ',');
  }

  /** `w,h` forces both dimensions. */
  lemma SizeExactOfPair(w: string, h: string)
    requires ParseInt(w).Some? && ParseInt(h).Some?
    ensures ParseSize(w + "," + h) == Ok(Size.Exact(ParseInt(w).value, ParseInt(h).value))
  {
    var s := w + "," + h;
    PairOfIntegers(w, h);
    assert s[0] == w[0] && s[|w|] == ',';
    PlainSizeStart(s);
  }

  /** `!w,h` fits within both dimensions. */
  lemma SizeBestFitOfPair(w: string, h: string)
    requires ParseInt(w).Some? && ParseInt(h).Some?
    ensures ParseSize("!" + w + "," + h) == Ok(BestFit(ParseInt(w).value, ParseInt(h).value))
  {
    var pair := w + "," + h;
    var s := "!" + w + "," + h;
    PairOfIntegers(w, h);
    assert s[1..] == pair;
    SizeOfBang(s);
  }

  /** A `!` followed by a width/height pair is the best-fit size of that pair. */
  lemma SizeOfBang(s: string)
    requires HasPrefix(s, "!") && ParseWidthHeight(s[1..]).Ok?
    ensures ParseSize(s) == Ok(BestFit(ParseWidthHeight(s[1..]).value.width, ParseWidthHeight(s[1..]).value.height))
  {
    assert s != "full" && !HasPrefix(s, "pct:");
  }

  /** `pct:n` scales by the number after the colon. */
  lemma SizePercentOf(p: string)
    requires ParseFloat(p).Some?
    ensures ParseSize("pct:" + p) == Ok(Size.Percent(ParseFloat(p).value))
  {
    var s := "pct:" + p;
    assert Join(["pct", p], ':') == s;
    SplitOfJoin(["pct", p], ':');
    assert s[..4] == "pct:";
  }

  /** A run of digits too large for float64 is the range error, which every
      float field reports as unparsable: as a rotation, a percent size and a
      percent region. */
  lemma OverflowUnparsable(t: string)
    requires t != [] && AllDigits(t) && DigitsValue(t) as real >= FloatOverflow
    ensures ParseRotation(t) == Err(CouldNotParseRotation)
    ensures ParseSize("pct:" + t) == Err(CouldNotParseSize)
    ensures ParseRegion("pct:" + t) == Err(CouldNotParseRegion)
  {
    ParseFloatOfDigits(t);
    assert IsDigit(t[0]) && ':' !in t && ',' !in t;
    OverflowRotation(t);
    OverflowPercentSize(t);
    OverflowPercentRegion(t);
  }

  lemma OverflowRotation(t: string)
    requires t != [] && IsDigit(t[0]) && ParseFloat(t) == None
    ensures ParseRotation(t) == Err(CouldNotParseRotation)
  {
    assert !HasPrefix(t, "!");
  }

  lemma OverflowPercentSize(t: string)
    requires t != [] && ':' !in t && ParseFloat(t) == None
    ensures ParseSize("pct:" + t) == Err(CouldNotParseSize)
  {
    var s := "pct:" + t;
    assert s[..4] == "pct:";
    assert Join(["pct", t], ':') == s;
    SplitOfJoin(["pct", t], ':');
  }

  lemma OverflowPercentRegion(t: string)
    requires t != [] && ',' !in t && ParseFloat(t) == None
    ensures ParseRegion("pct:" + t) == Err(CouldNotParseRegion)
  {
    var s := "pct:" + t;
    assert s[..4] == "pct:" && s[4..] == t && s != "full";
    assert Join([t], ',') == t;
    SplitOfJoin([t], ',');
    assert RegionParts(s) == [t] && !RegionPartOk(s, t);
    RegionOutcome(s);
  }

  /** `!` and `w,h` sizes need both halves: an empty half or a second comma
      is rejected. */
  lemma SizePairsNeedBothHalves(s: string)
    requires ParseSize(s).Ok? && (ParseSize(s).value.Exact? || ParseSize(s).value.BestFit?)
    ensures var t := if ParseSize(s).value.BestFit? then s[1..] else s;
      exists k :: 0 < k < |t| - 1 && t[k] == ',' && ',' !in t[..k] && ',' !in t[k + 1..]
  {
    if ParseSize(s).value.BestFit? {
      WidthHeightShape(s[1..]);
    } else {
      WidthHeightShape(s);
    }
  }

  /** A comma alone names neither dimension: it is the size error, not a
      width/height error. */
  lemma SizeCommaAlone()
    ensures ParseSize(",") == Err(CouldNotParseSize)
  {
    assert Join(["", ""], ',') == ",";
    SplitOfJoin(["", ""], ',');
    PlainSizeStart(",");
  }

  /** A payload that reads as an angle in range decides the rotation; the
      `!` prefix alone decides whether it is mirrored. */
  lemma RotationOfPayload(s: string, d: real)
    requires ParseFloat(RotationPayload(s)) == Some(d) && 0.0 <= d <= 360.0
    ensures ParseRotation(s) == if HasPrefix(s, "!") then Ok(Mirrored(d)) else Ok(Standard(d))
  {
  }

  /** A rendered angle in range reads back as a standard rotation, and with
      a leading `!` as a mirrored one. */
  lemma RotationRoundTrip(d: real)
    requires 0.0 <= d <= 360.0
    requires (d * 1000000.0).Floor as real == d * 1000000.0
    ensures ParseRotation(FormatFixed(d)) == Ok(Standard(d))
    ensures ParseRotation("!" + FormatFixed(d)) == Ok(Mirrored(d))
  {
    var t := FormatFixed(d);
    assert ParseFloat(t) == Some(d) by {
      ParseFloatOfFormatFixed(d);
    }
    assert RotationPayload(t) == t by {
      assert t == FixedDigits(d);
      assert IsDigit(t[0]);
    }
    RotationOfPayload(t, d);
    var m := "!" + t;
    assert RotationPayload(m) == t by {
      assert HasPrefix(m, "!") && m[1..] == t;
    }
    RotationOfPayload(m, d);
  }

  lemma JoinFive(a: string, b: string, c: string, d: string, e: string)
    ensures Join([a, b, c, d, e], ',') == a + "," + b + "," + c + "," + d + "," + e
  {
    assert [a, b, c, d, e][1..] == [b, c, d, e];
    JoinFour(b, c, d, e);
    assert Join([a, b, c, d, e], ',') == a + [','] + (b + "," + c + "," + d + "," + e);
  }

  lemma SplitFive(a: string, b: string, c: string, d: string, e: string)
    requires ',' !in a && ',' !in b && ',' !in c && ',' !in d && ',' !in e
    ensures Split(a + "," + b + "," + c + "," + d + "," + e, ',') == [a, b, c, d, e]
  {
    JoinFive(a, b, c, d, e);
    SplitOfJoin([a, b, c, d, e], ',');
  }

  /** Five integers overrun the four slots: the region parser as written
      indexes past its array, where the checked one reports a region error. */
  lemma FiveIntegersOverrun(a: string, b: string, c: string, d: string, e: string)
    requires ParseInt(a).Some? && ParseInt(b).Some? && ParseInt(c).Some?
    requires ParseInt(d).Some? && ParseInt(e).Some?
    ensures ParseRegion(a + "," + b + "," + c + "," + d + "," + e) == Err(IndexOutOfRange)
    ensures ParseRegionChecked(a + "," + b + "," + c + "," + d + "," + e) == Err(CouldNotParseRegion)
  {
    var s := a + "," + b + "," + c + "," + d + "," + e;
    assert s != "full" && !HasPrefix(s, "pct:") && ',' in s by {
      assert s[0] == a[0] && s[|a|] == ',';
    }
    var parts := [a, b, c, d, e];
    assert RegionParts(s) == parts by {
      SplitFive(a, b, c, d, e);
    }
    assert forall k :: 0 <= k <= 4 ==> RegionPartOk(s, parts[k]);
    RegionOutcome(s);
  }
}

=== FILE: numbers.dfy ===
/** Decimal text to numbers and back: the subset of `strconv.ParseInt`
    (base 10, 64 bits) and `strconv.ParseFloat` that plain decimal strings
    exercise, and the `%d` and `%f` renderings the argument builder uses. */
module Numbers {
  import opened Results
  import Text

  const MinInt64: int := -0x8000_0000_0000_0000
  const MaxInt64: int := 0x7FFF_FFFF_FFFF_FFFF

  /** 2^1024 - 2^970: halfway between the largest float64, 2^1024 - 2^971,
      and 2^1024. A numeral of this magnitude or more rounds to infinity, so
      `strconv.ParseFloat(s, 64)` reports `ErrRange` for it. */
  const FloatOverflow: real := 179769313486231580793728971405303415079934132710037826936173778980444968292764750946649017977587207096330286416692887910946555547851940402630657488671505820681908902000708383676273854845817711531764475730270069855571366959622842914819860834936475292719074168444365510704342711559699508093042880177904174497792.0

  predicate IsDigit(c: char)
  {
    '0' <= c <= '9'
  }

  predicate AllDigits(s: string)
  {
    forall i :: 0 <= i < |s| ==> IsDigit(s[i])
  }

  function DigitValue(c: char): nat
    requires IsDigit(c)
  {
    c as int - '0' as int
  }

  function DigitChar(d: nat): (c: char)
    requires d < 10
    ensures IsDigit(c) && DigitValue(c) == d
  {
    ('0' as int + d) as char
  }

  /** Value of a string of decimal digits, most significant first. */
  function DigitsValue(s: string): nat
    requires AllDigits(s)
  {
    if s == [] then 0 else DigitsValue(s[..|s| - 1]) * 10 + DigitValue(s[|s| - 1])
  }

  function Pow10(k: nat): (p: nat)
    ensures p >= 1
  {
    if k == 0 then 1 else 10 * Pow10(k - 1)
  }

  /** A leading `+` or `-` and the rest of the string. */
  function SplitSign(s: string): (bool, string)
  {
    if |s| > 0 && (s[0] == '+' || s[0] == '-') then (s[0] == '-', s[1..]) else (false, s)
  }

  /** `strconv.ParseInt(s, 10, 64)`: an optional sign, at least one decimal
      digit, and a value that fits in 64 bits. */
  function ParseInt(s: string): (r: Option<int>)
    ensures r.Some? ==> MinInt64 <= r.value <= MaxInt64
    ensures r.Some? ==> s != [] && s[|s| - 1] != '+' && s[|s| - 1] != '-'
    ensures r.Some? ==> ',' !in s && '.' !in s && ':' !in s
    ensures r.Some? ==> s[0] == '+' || s[0] == '-' || IsDigit(s[0])
  {
    var (neg, body) := SplitSign(s);
    if body == [] || !AllDigits(body) then None
    else
      var v: int := if neg then -(DigitsValue(body) as int) else DigitsValue(body);
      assert s[|s| - 1] == body[|body| - 1];
      assert forall i :: 0 <= i < |body| ==> body[i] == s[|s| - |body| + i];
      if MinInt64 <= v <= MaxInt64 then Some(v) else None
  }

  /** The value of the numeral `whole.frac`. */
  function DecimalValue(whole: string, frac: string): real
    requires AllDigits(whole) && AllDigits(frac)
  {
    DigitsValue(whole) as real + DigitsValue(frac) as real / Pow10(|frac|) as real
  }

  /** An unsigned decimal numeral: digits, optionally a point and more
      digits, with at least one digit overall. */
  function ParseUnsignedDecimal(b: string): Option<real>
  {
    if '.' in b then
      var k := Text.IndexOf(b, '.');
      var whole := b[..k];
      var frac := b[k + 1..];
      if AllDigits(whole) && AllDigits(frac) && (whole != [] || frac != []) then
        Some(DecimalValue(whole, frac))
      else None
    else if b != [] && AllDigits(b) then Some(DigitsValue(b) as real)
    else None
  }

  /** A signed decimal numeral is not empty and holds no comma or colon. */
  lemma NumeralChars(s: string)
    requires ParseUnsignedDecimal(SplitSign(s).1).Some?
    ensures s != [] && ',' !in s && ':' !in s
  {
    var body := SplitSign(s).1;
    assert body != [] && ',' !in body && ':' !in body by {
      if '.' in body {
        var k := Text.IndexOf(body, '.');
        assert body == body[..k] + ['.'] + body[k + 1..];
      }
    }
    assert s == body || s == [s[0]] + body;
  }

  /** `strconv.ParseFloat(s, 64)` restricted to signed decimal numerals,
      with the exact value of the numeral as result; a numeral too large
      for float64 is the range error. */
  function ParseFloat(s: string): (r: Option<real>)
    ensures r.Some? ==> s != [] && ',' !in s && ':' !in s
    ensures r.Some? ==> -FloatOverflow < r.value < FloatOverflow
    ensures r.Some? <==>
      (ParseUnsignedDecimal(SplitSign(s).1).Some? && ParseUnsignedDecimal(SplitSign(s).1).value < FloatOverflow)
  {
    var (neg, body) := SplitSign(s);
    match ParseUnsignedDecimal(body)
    case None => None
    case Some(v) =>
      NumeralChars(s);
      if v >= FloatOverflow then None
      else Some(if neg then -v else v)
  }

  /** A plain run of digits reads as that whole number, unless it is too
      large for float64. */
  lemma ParseFloatOfDigits(s: string)
    requires s != [] && AllDigits(s)
    ensures DigitsValue(s) as real < FloatOverflow ==> ParseFloat(s) == Some(DigitsValue(s) as real)
    ensures DigitsValue(s) as real >= FloatOverflow ==> ParseFloat(s) == None
  {
    assert SplitSign(s) == (false, s);
    assert '.' !in s by {
      assert forall i :: 0 <= i < |s| ==> IsDigit(s[i]);
    }
  }

  /** `%d` of a natural number. */
  lemma {:induction false} Pow10Add(a: nat, b: nat)
    ensures Pow10(a + b) == Pow10(a) * Pow10(b)
  {
    if a > 0 {
      Pow10Add(a - 1, b);
    }
  }

  /** 10^320 lies beyond float64. */
  lemma Pow10BeyondFloat64()
    ensures Pow10(320) as real >= FloatOverflow
  {
    assert Pow10(5) == 100000;
    Pow10Add(5, 5);
    assert Pow10(10) == 10000000000;
    Pow10Add(10, 10);
    assert Pow10(20) == 100000000000000000000;
    Pow10Add(20, 20);
    assert Pow10(40) == 10000000000000000000000000000000000000000;
    Pow10Add(40, 40);
    assert Pow10(80) == 100000000000000000000000000000000000000000000000000000000000000000000000000000000;
    Pow10Add(80, 80);
    assert Pow10(160) == 10000000000000000000000000000000000000000000000000000000000000000000000000000000000000000000000000000000000000000000000000000000000000000000000000000000000000000;
    Pow10Add(160, 160);
    assert Pow10(320) == 100000000000000000000000000000000000000000000000000000000000000000000000000000000000000000000000000000000000000000000000000000000000000000000000000000000000000000000000000000000000000000000000000000000000000000000000000000000000000000000000000000000000000000000000000000000000000000000000000000000000000000000000000000000;
  }

  /** The numeral of 10^320, a one followed by 320 zeros, is well formed
      but float64 cannot hold it: the range error. */
  lemma OverflowNumeral()
    ensures DigitsValue(NatToString(Pow10(320))) as real >= FloatOverflow
    ensures ParseUnsignedDecimal(NatToString(Pow10(320))).Some?
    ensures ParseFloat(NatToString(Pow10(320))) == None
  {
    var t := NatToString(Pow10(320));
    DigitsValueOfNatToString(Pow10(320));
    Pow10BeyondFloat64();
    assert '.' !in t by {
      assert forall i :: 0 <= i < |t| ==> IsDigit(t[i]);
    }
    ParseFloatOfDigits(t);
  }

  function NatToString(n: nat): (s: string)
    ensures s != [] && AllDigits(s)
  {
    if n < 10 then [DigitChar(n)] else NatToString(n / 10) + [DigitChar(n % 10)]
  }

  /** `%d`: a minus sign for negative values, then the decimal digits. */
  function FormatInt(i: int): string
  {
    if i < 0 then "-" + NatToString(-i) else NatToString(i)
  }

  lemma {:induction false} DigitsValueOfNatToString(n: nat)
    ensures DigitsValue(NatToString(n)) == n
  {
    if n >= 10 {
      var s := NatToString(n);
      assert s[..|s| - 1] == NatToString(n / 10);
      DigitsValueOfNatToString(n / 10);
    }
  }

  /** `%d` output read back by `strconv.ParseInt` is the same number. */
  lemma ParseIntOfFormatInt(i: int)
    requires MinInt64 <= i <= MaxInt64
    ensures ParseInt(FormatInt(i)) == Some(i)
  {
    var n: nat := if i < 0 then -i else i;
    var digits := NatToString(n);
    DigitsValueOfNatToString(n);
    assert IsDigit(digits[0]);
    if i < 0 {
      var s := "-" + digits;
      assert s[0] == '-' && s[1..] == digits;
      assert SplitSign(s) == (true, digits);
    } else {
      assert SplitSign(digits) == (false, digits);
    }
  }

  /** Rendered integers hold neither a space nor the geometry separators
      `+` and `x`, so they survive the argument builder's split on spaces as
      a single token and can be read back out of a geometry. */
  lemma NoSpaceInFormatInt(i: int)
    ensures ' ' !in FormatInt(i) && '+' !in FormatInt(i) && 'x' !in FormatInt(i)
  {
    var s := NatToString(if i < 0 then -i else i);
    assert forall k :: 0 <= k < |s| ==> IsDigit(s[k]);
  }

  /** Round half to even of a non-negative real. */
  function RoundHalfEven(a: real): (n: nat)
    requires a >= 0.0
    ensures -0.5 <= n as real - a <= 0.5
    ensures a == a.Floor as real ==> n == a.Floor
  {
    var f := a.Floor;
    var frac := a - f as real;
    if frac < 0.5 then f
    else if frac > 0.5 then f + 1
    else if f % 2 == 0 then f else f + 1
  }

  function Zeros(k: nat): (z: string)
    ensures |z| == k && AllDigits(z)
  {
    if k == 0 then [] else Zeros(k - 1) + ['0']
  }

  /** Left-pads a digit string with zeros to at least `width` characters. */
  function PadDigits(s: string, width: nat): (t: string)
    requires AllDigits(s)
    ensures AllDigits(t) && |t| == if |s| < width then width else |s|
  {
    var z := if |s| < width then Zeros(width - |s|) else [];
    assert forall i :: 0 <= i < |z + s| ==> (z + s)[i] == if i < |z| then z[i] else s[i - |z|];
    z + s
  }

  /** `%f` of a non-negative value: integer part, a point and six fractional
      digits, rounded half to even at the sixth decimal. */
  function FixedDigits(a: real): (s: string)
    requires a >= 0.0
    ensures s != [] && IsDigit(s[0])
  {
    var q := RoundHalfEven(a * 1000000.0);
    var whole := NatToString(q / 1000000);
    assert IsDigit(whole[0]);
    whole + "." + PadDigits(NatToString(q % 1000000), 6)
  }

  /** `%f`: a minus sign for negative values, then the fixed-point digits. */
  function FormatFixed(x: real): string
  {
    if x < 0.0 then "-" + FixedDigits(-x) else FixedDigits(x)
  }

  lemma {:induction false} DigitsValueOfZeros(k: nat, s: string)
    requires AllDigits(s)
    ensures DigitsValue(Zeros(k) + s) == DigitsValue(s)
    decreases |s|, k
  {
    if s == [] {
      if k > 0 {
        assert Zeros(k) + s == Zeros(k);
        assert Zeros(k)[..k - 1] == Zeros(k - 1);
        DigitsValueOfZeros(k - 1, []);
        assert Zeros(k - 1) + [] == Zeros(k - 1);
      }
    } else {
      var t := Zeros(k) + s;
      assert t[..|t| - 1] == Zeros(k) + s[..|s| - 1];
      DigitsValueOfZeros(k, s[..|s| - 1]);
    }
  }

  lemma {:induction false} NatToStringLength(n: nat, k: nat)
    requires n < Pow10(k)
    ensures |NatToString(n)| <= k || (n == 0 && k == 0)
  {
    assert Pow10(0) == 1;
    if n >= 10 {
      assert k >= 1;
      NatToStringLength(n / 10, k - 1);
    } else if k == 0 {
      assert n == 0;
    }
  }

  lemma DigitsValueOfPad(n: nat)
    requires n < 1000000
    ensures |PadDigits(NatToString(n), 6)| == 6
    ensures DigitsValue(PadDigits(NatToString(n), 6)) == n
  {
    assert Pow10(6) == 1000000;
    NatToStringLength(n, 6);
    var s := NatToString(n);
    DigitsValueOfNatToString(n);
    if |s| < 6 {
      DigitsValueOfZeros(6 - |s|, s);
    } else {
      assert PadDigits(s, 6) == s;
    }
  }

  /** The unsigned numeral `whole.frac` has the value its digits spell. */
  lemma ParseUnsignedDecimalOfParts(whole: string, frac: string)
    requires AllDigits(whole) && AllDigits(frac) && whole != []
    ensures ParseUnsignedDecimal(whole + "." + frac) == Some(DecimalValue(whole, frac))
  {
    var body := whole + ['.'] + frac;
    assert '.' !in whole by {
      assert forall j :: 0 <= j < |whole| ==> IsDigit(whole[j]);
    }
    Text.IndexOfAfter(whole, '.', frac);
    var k := Text.IndexOf(body, '.');
    assert body[..k] == whole && body[k + 1..] == frac;
    assert whole + "." + frac == body;
  }

  lemma RealDivMod(q: nat, m: nat)
    requires m > 0
    ensures (q / m) as real + (q % m) as real / m as real == q as real / m as real
  {
    assert q == (q / m) * m + q % m;
    assert q as real == ((q / m) * m) as real + (q % m) as real;
    assert ((q / m) * m) as real == (q / m) as real * m as real;
  }

  lemma ParseUnsignedDecimalOfFixedDigits(a: real)
    requires a >= 0.0
    requires (a * 1000000.0).Floor as real == a * 1000000.0
    ensures ParseUnsignedDecimal(FixedDigits(a)) == Some(a)
  {
    var q := RoundHalfEven(a * 1000000.0);
    var whole := NatToString(q / 1000000);
    var frac := PadDigits(NatToString(q % 1000000), 6);
    assert FixedDigits(a) == whole + "." + frac;
    assert DecimalValue(whole, frac) == a by {
      assert q as real == a * 1000000.0;
      DigitsValueOfNatToString(q / 1000000);
      DigitsValueOfPad(q % 1000000);
      assert Pow10(6) == 1000000;
      RealDivMod(q, 1000000);
    }
    ParseUnsignedDecimalOfParts(whole, frac);
  }

  lemma ParseFloatOfUnsigned(d: string)
    requires d != [] && IsDigit(d[0]) && ParseUnsignedDecimal(d).Some?
    ensures ParseUnsignedDecimal(d).value < FloatOverflow ==> ParseFloat(d) == ParseUnsignedDecimal(d)
    ensures ParseUnsignedDecimal(d).value >= FloatOverflow ==> ParseFloat(d) == None
  {
    assert SplitSign(d) == (false, d);
  }

  lemma ParseFloatOfNegated(d: string)
    requires d != [] && IsDigit(d[0]) && ParseUnsignedDecimal(d).Some?
    ensures ParseUnsignedDecimal(d).value < FloatOverflow ==> ParseFloat("-" + d) == Some(-ParseUnsignedDecimal(d).value)
    ensures ParseUnsignedDecimal(d).value >= FloatOverflow ==> ParseFloat("-" + d) == None
  {
    var s := "-" + d;
    assert s[0] == '-' && s[1..] == d;
    assert SplitSign(s) == (true, d);
  }

  /** A real with no fractional part stays whole when negated. */
  lemma WholeNegated(y: real)
    requires y.Floor as real == y
    ensures (-y).Floor as real == -y
  {
    var k := y.Floor;
    assert -y == (-k) as real;
  }

  /** `%f` is the sign and then the digits of the magnitude. */
  lemma FormatFixedShape(x: real)
    ensures FormatFixed(x) == (if x < 0.0 then "-" else "") + FixedDigits(if x < 0.0 then -x else x)
  {
  }

  /** The magnitude of a value with at most six decimals has at most six
      decimals. */
  lemma MagnitudeScaled(x: real)
    requires (x * 1000000.0).Floor as real == x * 1000000.0
    ensures var a := if x < 0.0 then -x else x; a >= 0.0 && (a * 1000000.0).Floor as real == a * 1000000.0
  {
    if x < 0.0 {
      assert (-x) * 1000000.0 == -(x * 1000000.0);
      WholeNegated(x * 1000000.0);
    }
  }

  /** A sign and an unsigned numeral read back as the signed value. */
  lemma ParseFloatOfSigned(neg: bool, d: string, v: real)
    requires d != [] && IsDigit(d[0]) && ParseUnsignedDecimal(d) == Some(v)
    ensures ParseFloat((if neg then "-" else "") + d) == (if v < FloatOverflow then Some(if neg then -v else v) else None)
  {
    var s := (if neg then "-" else "") + d;
    if neg {
      assert s == "-" + d;
      ParseFloatOfNegated(d);
    } else {
      assert s == d;
      ParseFloatOfUnsigned(d);
    }
  }

  /** `%f` output read back by `strconv.ParseFloat` is the same number when it
      has at most six decimals, and the range error beyond float64. */
  lemma ParseFloatOfFormatFixed(x: real)
    requires (x * 1000000.0).Floor as real == x * 1000000.0
    ensures ParseFloat(FormatFixed(x)) == (if -FloatOverflow < x < FloatOverflow then Some(x) else None)
  {
    var neg := x < 0.0;
    var a := if neg then -x else x;
    MagnitudeScaled(x);
    ParseUnsignedDecimalOfFixedDigits(a);
    var t := FixedDigits(a);
    ParseFloatOfSigned(neg, t, a);
    FormatFixedShape(x);
    assert FormatFixed(x) == (if neg then "-" else "") + t;
    assert (if neg then -a else a) == x;
  }

  lemma NoSpaceInFixedDigits(a: real)
    requires a >= 0.0
    ensures ' ' !in FixedDigits(a)
  {
    var q := RoundHalfEven(a * 1000000.0);
    var w := NatToString(q / 1000000);
    var f := PadDigits(NatToString(q % 1000000), 6);
    assert forall k :: 0 <= k < |w| ==> IsDigit(w[k]);
    assert forall k :: 0 <= k < |f| ==> IsDigit(f[k]);
  }

  lemma NoSpaceInFormatFixed(x: real)
    ensures ' ' !in FormatFixed(x)
  {
    NoSpaceInFixedDigits(if x < 0.0 then -x else x);
  }
}

=== FILE: params.dfy ===
/** The IIIF Image API 2.1 request grammar as the server parses it: one total
    parser per path segment (identifier, region, size, rotation, quality,
    format), each returning a typed value or the error the server reports.
    The closed datatypes replace the Go `interface{}` results. */
module Params {
  import opened Results
  import opened Text
  import opened Numbers

  /** IIIF Image API 2.1, section 4.1 (Region). */
  datatype Region =
    | Full
    | Exact(x: int, y: int, w: int, h: int)
    | Percent(px: real, py: real, pw: real, ph: real)

  /** IIIF Image API 2.1, section 4.2 (Size). */
  datatype Size =
    | Full
    | Width(w: int)
    | Height(h: int)
    | Exact(w: int, h: int)
    | BestFit(w: int, h: int)
    | Percent(pct: real)

  /** IIIF Image API 2.1, section 4.3 (Rotation); a mirrored rotation flips horizontally first. */
  datatype Rotation = Standard(degrees: real) | Mirrored(degrees: real)

  /** A `w,h` pair, as read from a size or from the probe's output. */
  datatype WidthHeight = WidthHeight(width: int, height: int)

  /** Characters an identifier must not contain. */
  const IllegalIdentifierChars: string := "/?#[]@%"

  /** IIIF Image API 2.1, section 4.4 (Quality) values, in the order the server scans them. */
  const Qualities: seq<string> := ["color", "gray", "bitonal", "default"]

  /** The output formats the server accepts, in the order it probes them. */
  const ValidFormats: seq<string> := ["jpg", "tif", "png", "gif", "jp2", "pdf", "webp"]

  /** A linear scan that remembers whether `s` was seen in `list`. */
  function Member(list: seq<string>, s: string): (found: bool)
    ensures found <==> s in list
  {
    if list == [] then false
    else
      var rest := Member(list[1..], s);
      assert list == [list[0]] + list[1..];
      list[0] == s || rest
  }

  /** `parseIdentifier`: any string free of the illegal characters, unchanged. */
  function ParseIdentifier(s: string): (r: Result<string>)
    ensures r.Ok? <==> forall i :: 0 <= i < |s| ==> s[i] !in IllegalIdentifierChars
    ensures r.Ok? ==> r.value == s
    ensures r.Err? ==> r.error == IllegalIdentifier
  {
    if ContainsAny(s, IllegalIdentifierChars) then Err(IllegalIdentifier) else Ok(s)
  }

  /** `parseQuality`: exactly one of the four quality names, case-sensitive. */
  function ParseQuality(s: string): (r: Result<string>)
    ensures r.Ok? <==> s == "color" || s == "gray" || s == "bitonal" || s == "default"
    ensures r.Ok? ==> r.value == s
    ensures r.Err? ==> r.error == InvalidQuality
  {
    if Member(Qualities, s) then Ok(s) else Err(InvalidQuality)
  }

  /** `parseFormat`: one of the supported extensions, unchanged. */
  function ParseFormat(s: string): (r: Result<string>)
    ensures r.Ok? <==> s in ValidFormats
    ensures r.Ok? ==> r.value == s
    ensures r.Err? ==> r.error == InvalidFormat
  {
    if Member(ValidFormats, s) then Ok(s) else Err(InvalidFormat)
  }

  /** A region part the fill loop accepts: non-empty and numeric. */
  ghost predicate GoodPart<T>(p: string, parse: string -> Option<T>)
  {
    p != [] && parse(p).Some?
  }

  /** The loop that fills the four slots of a region from its comma parts,
      starting at part `i`: an empty or unparsable part stops it with a
      region error, a fifth good part indexes past the four slots (a
      run-time panic in the server), and slots without a part keep their
      value. */
  function FillSlots<T>(parts: seq<string>, parse: string -> Option<T>, slots: seq<T>, i: nat)
    : (r: Result<seq<T>>)
    requires |slots| == 4 && i <= 4 && i <= |parts|
    ensures r.Ok? ==> |r.value| == 4
    ensures r.Err? ==> r.error == CouldNotParseRegion || r.error == IndexOutOfRange
    decreases |parts| - i
  {
    if i == |parts| then Ok(slots)
    else if parts[i] == "" then Err(CouldNotParseRegion)
    else match parse(parts[i])
      case None => Err(CouldNotParseRegion)
      case Some(v) =>
        if i >= 4 then Err(IndexOutOfRange)
        else FillSlots(parts, parse, slots[i := v], i + 1)
  }

  /** What the fill loop yields from part `i` on: success exactly when at
      most four parts remain good, each slot then holding its part's value
      or its old value; a region error exactly when a bad part comes before
      the fifth; the index panic exactly when five good parts are met. */
  lemma {:induction false} FillSlotsOutcome<T>(parts: seq<string>, parse: string -> Option<T>, slots: seq<T>, i: nat)
    requires |slots| == 4 && i <= 4 && i <= |parts|
    ensures var r := FillSlots(parts, parse, slots, i);
      && (r.Ok? <==> |parts| <= 4 && forall k :: i <= k < |parts| ==> GoodPart(parts[k], parse))
      && (r.Ok? ==> forall k :: 0 <= k < 4 ==>
            r.value[k] == if i <= k < |parts| then parse(parts[k]).value else slots[k])
      && (r == Err(CouldNotParseRegion) <==>
            exists k :: i <= k < |parts| && k <= 4 && !GoodPart(parts[k], parse))
      && (r == Err(IndexOutOfRange) <==>
            |parts| > 4 && forall k :: i <= k <= 4 ==> GoodPart(parts[k], parse))
    decreases |parts| - i
  {
    if i < |parts| && GoodPart(parts[i], parse) && i < 4 {
      FillSlotsOutcome(parts, parse, slots[i := parse(parts[i]).value], i + 1);
    }
  }

  /** The percent branch of the region parser, on the text after `pct:`. */
  function PercentRegion(body: string): (r: Result<Region>)
    ensures r.Ok? ==> r.value.Percent?
  {
    match FillSlots(Split(body, ','), ParseFloat, [0.0, 0.0, 0.0, 0.0], 0)
    case Ok(v) => Ok(Region.Percent(v[0], v[1], v[2], v[3]))
    case Err(e) => Err(e)
  }

  /** The pixel branch of the region parser. */
  function ExactRegion(s: string): (r: Result<Region>)
    ensures r.Ok? ==> r.value.Exact?
  {
    match FillSlots(Split(s, ','), ParseInt, [0, 0, 0, 0], 0)
    case Ok(v) => Ok(Region.Exact(v[0], v[1], v[2], v[3]))
    case Err(e) => Err(e)
  }

  /** The comma parts of a non-full region, after the `pct:` prefix if any. */
  function RegionParts(s: string): seq<string>
  {
    if HasPrefix(s, "pct:") then Split(s[4..], ',') else Split(s, ',')
  }

  /** `parseRegion`: `full`, then the `pct:` prefix, then any comma. */
  function ParseRegion(s: string): (r: Result<Region>)
    ensures s == "full" ==> r == Ok(Region.Full)
    ensures r.Ok? ==> (r.value.Full? <==> s == "full")
    ensures r.Ok? && r.value.Percent? ==> HasPrefix(s, "pct:")
    ensures r.Ok? && r.value.Exact? ==> !HasPrefix(s, "pct:") && ',' in s
    ensures s != "full" && !HasPrefix(s, "pct:") && ',' !in s ==> r == Err(CouldNotParseRegion)
    ensures r.Err? ==> r.error == CouldNotParseRegion || r.error == IndexOutOfRange
  {
    if s == "full" then Ok(Region.Full)
    else if HasPrefix(s, "pct:") then PercentRegion(s[4..])
    else if ',' in s then ExactRegion(s)
    else Err(CouldNotParseRegion)
  }

  /** The region parser with a fifth part rejected like any other malformed
      region instead of indexing past the four slots. */
  function ParseRegionChecked(s: string): (r: Result<Region>)
    ensures r.Err? ==> r.error == CouldNotParseRegion
    ensures r.Ok? <==> ParseRegion(s).Ok?
    ensures r.Ok? ==> r.value == ParseRegion(s).value
  {
    match ParseRegion(s)
    case Ok(region) => Ok(region)
    case Err(_) => Err(CouldNotParseRegion)
  }

  /** `parseWidthHeight`: exactly two comma parts, both integers. */
  function ParseWidthHeight(s: string): (r: Result<WidthHeight>)
    ensures r.Ok? <==>
      |Split(s, ',')| == 2 && ParseInt(Split(s, ',')[0]).Some? && ParseInt(Split(s, ',')[1]).Some?
    ensures r.Ok? ==> r.value == WidthHeight(ParseInt(Split(s, ',')[0]).value, ParseInt(Split(s, ',')[1]).value)
    ensures r.Err? ==> r.error == CouldNotWidthHeight
  {
    var parts := Split(s, ',');
    if |parts| != 2 then Err(CouldNotWidthHeight)
    else match (ParseInt(parts[0]), ParseInt(parts[1]))
      case (Some(w), Some(h)) => Ok(WidthHeight(w, h))
      case _ => Err(CouldNotWidthHeight)
  }

  /** `parseSize`: `full`, then `pct:`, then `!`, then a comma pair whose
      empty half means that dimension is absent. */
  function ParseSize(s: string): (r: Result<Size>)
    ensures r.Ok? ==> (r.value.Full? <==> s == "full")
    ensures r.Ok? && r.value.Percent? ==> HasPrefix(s, "pct:")
    ensures r.Ok? && r.value.BestFit? ==> HasPrefix(s, "!")
    ensures r.Ok? && (r.value.Width? || r.value.Height? || r.value.Exact?) ==>
      ',' in s && !HasPrefix(s, "pct:") && !HasPrefix(s, "!")
    ensures s != "full" && !HasPrefix(s, "pct:") && !HasPrefix(s, "!") && ',' !in s ==>
      r == Err(CouldNotParseSize)
    ensures (s != "full" && !HasPrefix(s, "pct:") && !HasPrefix(s, "!") && ',' in s
             && Split(s, ',')[0] == "" && Split(s, ',')[1] == "") ==> r == Err(CouldNotParseSize)
    ensures r.Err? ==> r.error == CouldNotParseSize || r.error == CouldNotWidthHeight
  {
    if s == "full" then Ok(Size.Full)
    else if HasPrefix(s, "pct:") then
      assert s[3] == ':';
      var p := Split(s, ':')[1];
      if p == "" then Err(CouldNotParseSize)
      else match ParseFloat(p)
        case None => Err(CouldNotParseSize)
        case Some(v) => Ok(Size.Percent(v))
    else if HasPrefix(s, "!") then
      match ParseWidthHeight(s[1..])
      case Ok(wh) => Ok(BestFit(wh.width, wh.height))
      case Err(e) => Err(e)
    else if ',' in s then
      var parts := Split(s, ',');
      var w := parts[0];
      var h := parts[1];
      if w != "" && h != "" then
        match ParseWidthHeight(s)
        case Ok(wh) => Ok(Size.Exact(wh.width, wh.height))
        case Err(e) => Err(e)
      else if w != "" && h == "" then
        match ParseInt(w)
        case None => Err(CouldNotWidthHeight)
        case Some(n) => Ok(Width(n))
      else if w == "" && h != "" then
        match ParseInt(h)
        case None => Err(CouldNotWidthHeight)
        case Some(n) => Ok(Height(n))
      else Err(CouldNotParseSize)
    else Err(CouldNotParseSize)
  }

  /** The degrees text of a rotation, without the mirroring `!`. */
  function RotationPayload(s: string): string
  {
    if HasPrefix(s, "!") then s[1..] else s
  }

  /** `parseRotation`: an optional `!`, then degrees in [0, 360]. */
  function ParseRotation(s: string): (r: Result<Rotation>)
    ensures r.Ok? ==> 0.0 <= r.value.degrees <= 360.0
    ensures r.Ok? ==> (r.value.Mirrored? <==> HasPrefix(s, "!"))
    ensures r.Ok? ==> ParseFloat(RotationPayload(s)) == Some(r.value.degrees)
    ensures r == Err(CouldNotParseRotation) <==> ParseFloat(RotationPayload(s)).None?
    ensures r == Err(DegreesOutOfRange) <==>
      ParseFloat(RotationPayload(s)).Some? && !(0.0 <= ParseFloat(RotationPayload(s)).value <= 360.0)
    ensures r.Err? ==> r.error == CouldNotParseRotation || r.error == DegreesOutOfRange
  {
    var mirrored := HasPrefix(s, "!");
    var payload := if mirrored then s[1..] else s;
    match ParseFloat(payload)
    case None => Err(CouldNotParseRotation)
    case Some(d) =>
      if d > 360.0 || d < 0.0 then Err(DegreesOutOfRange)
      else if mirrored then Ok(Mirrored(d))
      else Ok(Standard(d))
  }
}

=== FILE: request.dfy ===
/** A parsed image request and the file it names: `imageReq` runs the six
    segment parsers in URL order and stops at the first failure; `toPath`
    names the source image under `images/`. */
module Request {
  import opened Results
  import opened Text
  import opened Params

  /** `ImageReq`, without the HTTP request it was read from. */
  datatype ImageReq = ImageReq(
    prefix: string,
    identifier: string,
    region: Region,
    size: Size,
    rotation: Rotation,
    format: string,
    quality: string)

  /** The file an identifier and a format name, relative to the server's
      working directory. */
  function ImagePath(identifier: string, format: string): string
  {
    "images/" + identifier + "." + format
  }

  /** `ImageReq.toPath`: under `images/`, the identifier, a dot and the
      format, in that order. */
  function ToPath(req: ImageReq): (p: string)
    ensures HasPrefix(p, "images/") && |p| == 8 + |req.identifier| + |req.format|
    ensures p[7..7 + |req.identifier|] == req.identifier && p[7 + |req.identifier|] == '.'
    ensures p[8 + |req.identifier|..] == req.format
  {
    ImagePath(req.identifier, req.format)
  }

  /** Reads an image path back: the identifier is everything between
      `images/` and the last dot, the format everything after it. */
  function SplitPath(path: string): Option<(string, string)>
  {
    if HasPrefix(path, "images/") && '.' in path[7..] then
      var rest := path[7..];
      var k := LastIndexOf(rest, '.');
      Some((rest[..k], rest[k + 1..]))
    else None
  }

  /** A path built from a dot-free format reads back as its two halves; the
      identifier itself may contain dots. */
  lemma PathRoundTrip(identifier: string, format: string)
    requires '.' !in format
    ensures SplitPath(ImagePath(identifier, format)) == Some((identifier, format))
  {
    var path := ImagePath(identifier, format);
    assert path[..7] == "images/";
    assert path[7..] == identifier + ['.'] + format;
    LastIndexOfBefore(identifier, '.', format);
  }

  lemma NoDotInValidFormats()
    ensures forall f :: f in ValidFormats ==> '.' !in f
  {
    forall f | f in ValidFormats
      ensures '.' !in f
    {
      assert f == "jpg" || f == "tif" || f == "png" || f == "gif" || f == "jp2" || f == "pdf" || f == "webp";
    }
  }

  /** Two requests for supported formats name the same file only when they
      ask for the same identifier in the same format. */
  lemma ToPathInjective(a: ImageReq, b: ImageReq)
    requires a.format in ValidFormats && b.format in ValidFormats
    ensures ToPath(a) == ToPath(b) <==> a.identifier == b.identifier && a.format == b.format
  {
    NoDotInValidFormats();
    PathRoundTrip(a.identifier, a.format);
    PathRoundTrip(b.identifier, b.format);
  }

  /** What every parsed request satisfies. */
  ghost predicate WellFormed(req: ImageReq)
  {
    && (forall i :: 0 <= i < |req.identifier| ==> req.identifier[i] !in IllegalIdentifierChars)
    && 0.0 <= req.rotation.degrees <= 360.0
    && req.quality in Qualities
    && req.format in ValidFormats
  }

  /** `imageReq`: identifier, region, size, rotation, quality, format, in
      that order. The first three failures are reported as generic parse
      errors, the last three as the parser's own error. The region parser is
      the one as written, so a region with five good parts stops the request
      with the index panic instead of a parse error. */
  function ParseImageRequest(
    prefix: string,
    rawIdentifier: string,
    rawRegion: string,
    rawSize: string,
    rawRotation: string,
    rawQuality: string,
    rawFormat: string): (r: Result<ImageReq>)
    ensures r.Ok? <==>
      && ParseIdentifier(rawIdentifier).Ok? && ParseRegion(rawRegion).Ok?
      && ParseSize(rawSize).Ok? && ParseRotation(rawRotation).Ok?
      && ParseQuality(rawQuality).Ok? && ParseFormat(rawFormat).Ok?
    ensures r.Ok? ==> WellFormed(r.value)
    ensures r.Ok? ==>
      && r.value.prefix == prefix
      && r.value.identifier == rawIdentifier
      && r.value.quality == rawQuality
      && r.value.format == rawFormat
      && ParseRegion(rawRegion) == Ok(r.value.region)
      && ParseSize(rawSize) == Ok(r.value.size)
      && ParseRotation(rawRotation) == Ok(r.value.rotation)
    ensures ParseIdentifier(rawIdentifier).Err? ==> r == Err(FailedIdentifier)
    ensures ParseIdentifier(rawIdentifier).Ok? && ParseRegion(rawRegion) == Err(IndexOutOfRange) ==>
      r == Err(IndexOutOfRange)
    ensures ParseIdentifier(rawIdentifier).Ok? && ParseRegion(rawRegion) == Err(CouldNotParseRegion) ==>
      r == Err(FailedRegion)
    ensures ParseIdentifier(rawIdentifier).Ok? && ParseRegion(rawRegion).Ok? ==>
      && (ParseSize(rawSize).Err? ==> r == Err(FailedSize))
      && (ParseSize(rawSize).Ok? && ParseRotation(rawRotation).Err? ==> r == Err(ParseRotation(rawRotation).error))
      && (ParseSize(rawSize).Ok? && ParseRotation(rawRotation).Ok? && ParseQuality(rawQuality).Err? ==>
            r == Err(InvalidQuality))
      && ((ParseSize(rawSize).Ok? && ParseRotation(rawRotation).Ok? && ParseQuality(rawQuality).Ok?
           && ParseFormat(rawFormat).Err?) ==> r == Err(InvalidFormat))
  {
    match ParseIdentifier(rawIdentifier)
    case Err(_) => Err(FailedIdentifier)
    case Ok(identifier) =>
      match ParseRegion(rawRegion)
      case Err(IndexOutOfRange) => Err(IndexOutOfRange)
      case Err(_) => Err(FailedRegion)
      case Ok(region) =>
        match ParseSize(rawSize)
        case Err(_) => Err(FailedSize)
        case Ok(size) =>
          match ParseRotation(rawRotation)
          case Err(e) => Err(e)
          case Ok(rotation) =>
            match ParseQuality(rawQuality)
            case Err(e) => Err(e)
            case Ok(quality) =>
              match ParseFormat(rawFormat)
              case Err(e) => Err(e)
              case Ok(format) =>
                Ok(ImageReq(prefix, identifier, region, size, rotation, format, quality))
  }

  /** The request parser with the checked region parser: the overrun is a
      region failure like any other, and no other outcome changes. */
  function ParseImageRequestChecked(
    prefix: string,
    rawIdentifier: string,
    rawRegion: string,
    rawSize: string,
    rawRotation: string,
    rawQuality: string,
    rawFormat: string): (r: Result<ImageReq>)
    ensures r.Ok? <==>
      && ParseIdentifier(rawIdentifier).Ok? && ParseRegionChecked(rawRegion).Ok?
      && ParseSize(rawSize).Ok? && ParseRotation(rawRotation).Ok?
      && ParseQuality(rawQuality).Ok? && ParseFormat(rawFormat).Ok?
    ensures r.Ok? ==> WellFormed(r.value) && ParseRegionChecked(rawRegion) == Ok(r.value.region)
    ensures r.Err? ==> r.error != IndexOutOfRange
    ensures ParseIdentifier(rawIdentifier).Ok? && ParseRegionChecked(rawRegion).Err? ==> r == Err(FailedRegion)
    ensures r != Err(FailedRegion) ==>
      r == ParseImageRequest(prefix, rawIdentifier, rawRegion, rawSize, rawRotation, rawQuality, rawFormat)
  {
    match ParseImageRequest(prefix, rawIdentifier, rawRegion, rawSize, rawRotation, rawQuality, rawFormat)
    case Err(IndexOutOfRange) => Err(FailedRegion)
    case other => other
  }
}

=== FILE: results.dfy ===
/** Option and Result carriers for the model's partial operations, and the
    error values the server's request grammar and argument builder report. */
module Results {

  datatype Option<+T> = None | Some(value: T)

  /** A value or the error that stopped its computation (Go's `(T, error)` pair). */
  datatype Result<+T> = Ok(value: T) | Err(error: Error)

  /** Every failure the modelled code can report. The first seven carry the
      messages of the error constants in main.go; the rest are the wrapped
      errors of the request assembly, the failure of the `identify` run
      (whose own text the server passes on), the defensive quality case of
      the argument builder, and the index panic of the region parser. */
  datatype Error =
    | CouldNotParseSize
    | CouldNotParseRotation
    | CouldNotParseRegion
    | CouldNotWidthHeight
    | DegreesOutOfRange
    | InvalidQuality
    | InvalidFormat
    | IllegalIdentifier
    | FailedIdentifier
    | FailedRegion
    | FailedSize
    | ProbeFailed(reason: string)
    | UnrecognizedQuality
    | IndexOutOfRange
}

=== FILE: rounding.dfy ===
/** The server's own `round` helper and the percent-to-pixel offset the
    argument builder derives from it. Arithmetic is exact over `real`. */
module Rounding {

  function Ceil(a: real): int
  {
    -((-a).Floor)
  }

  /** `round`: half away from zero. The Go helper returns an integral
      float64 that the caller immediately converts to `int`; the model
      returns that integer. */
  function Round(a: real): (r: int)
    ensures -0.5 <= r as real - a <= 0.5
    ensures r as real - a == 0.5 ==> a >= 0.0
    ensures a - r as real == 0.5 ==> a < 0.0
  {
    if a < 0.0 then Ceil(a - 0.5) else (a + 0.5).Floor
  }

  /** An integer nearest to `a`, a tie going to the one farther from zero. */
  ghost predicate IsRoundHalfAway(a: real, k: int)
  {
    && -0.5 <= k as real - a <= 0.5
    && (k as real - a == 0.5 ==> a >= 0.0)
    && (a - k as real == 0.5 ==> a < 0.0)
  }

  /** The nearest-integer, ties-away-from-zero rule has exactly one answer,
      and it is what `round` computes. */
  lemma RoundIsTheNearestInteger(a: real, k: int)
    ensures IsRoundHalfAway(a, k) <==> k == Round(a)
  {
  }

  /** Rounding commutes with negation. */
  lemma RoundIsOdd(a: real)
    ensures Round(-a) == -Round(a)
  {
    RoundIsTheNearestInteger(-a, -Round(a));
  }

  /** The crop offset `int(round(dim * pct / 100))` of a percent region: an
      integer within one half of the exact offset. */
  function PercentOffset(dim: int, pct: real): (r: int)
    ensures -0.5 <= r as real - dim as real * pct / 100.0 <= 0.5
  {
    Round(dim as real * pct / 100.0)
  }

  /** A percentage between 0 and 100 of a non-negative dimension is an offset
      inside that dimension. */
  lemma PercentOffsetInRange(dim: int, pct: real)
    requires dim >= 0 && 0.0 <= pct <= 100.0
    ensures 0 <= PercentOffset(dim, pct) <= dim
  {
    var v := dim as real * pct / 100.0;
    assert dim as real * pct <= dim as real * 100.0;
    assert 0.0 <= v <= dim as real;
  }
}

=== FILE: text.dfy ===
/** The handful of Go `strings` operations the request grammar and the
    argument builder rely on, over `string` as `seq<char>`. */
module Text {

  /** `strings.HasPrefix`. */
  predicate HasPrefix(s: string, p: string)
  {
    |p| <= |s| && s[..|p|] == p
  }

  /** Index of the first occurrence of `c` in `s`. */
  function IndexOf(s: string, c: char): (i: nat)
    requires c in s
    ensures i < |s| && s[i] == c
    ensures c !in s[..i]
  {
    if s[0] == c then 0
    else
      var j := IndexOf(s[1..], c);
      assert s[..j + 1] == [s[0]] + s[1..][..j];
      1 + j
  }

  /** Index of the last occurrence of `c` in `s`. */
  function LastIndexOf(s: string, c: char): (i: nat)
    requires c in s
    ensures i < |s| && s[i] == c
    ensures c !in s[i + 1..]
  {
    if s[|s| - 1] == c then |s| - 1
    else
      var init := s[..|s| - 1];
      assert c in init by {
        var k :| 0 <= k < |s| && s[k] == c;
        assert init[k] == c;
      }
      var j := LastIndexOf(init, c);
      assert s[j + 1..] == init[j + 1..] + [s[|s| - 1]];
      j
  }

  /** The last `c` of `p + [c] + q` is the one after `p` when `q` has none. */
  lemma LastIndexOfBefore(p: string, c: char, q: string)
    requires c !in q
    ensures c in p + [c] + q
    ensures LastIndexOf(p + [c] + q, c) == |p|
    ensures (p + [c] + q)[..|p|] == p && (p + [c] + q)[|p| + 1..] == q
  {
    var s := p + [c] + q;
    assert s[|p|] == c;
    var i := LastIndexOf(s, c);
    assert forall j :: |p| < j < |s| ==> s[j] == q[j - |p| - 1];
    assert forall j :: i < j < |s| ==> s[i + 1..][j - i - 1] == s[j];
    assert i == |p|;
  }

  /** The first `c` of `p + [c] + q` is the one after `p` when `p` has none. */
  lemma IndexOfAfter(p: string, c: char, q: string)
    requires c !in p
    ensures c in p + [c] + q
    ensures IndexOf(p + [c] + q, c) == |p|
    ensures (p + [c] + q)[..|p|] == p && (p + [c] + q)[|p| + 1..] == q
  {
    var s := p + [c] + q;
    assert s[|p|] == c;
    var i := IndexOf(s, c);
    assert forall j :: 0 <= j < |p| ==> s[j] == p[j];
    assert forall j :: 0 <= j < i ==> s[..i][j] == s[j];
    assert i == |p|;
  }

  /** `strings.ContainsAny(s, chars)`: scans `s` left to right. */
  function ContainsAny(s: string, chars: string): (b: bool)
    ensures b <==> exists i :: 0 <= i < |s| && s[i] in chars
  {
    if s == [] then false
    else if s[0] in chars then true
    else
      var rest := ContainsAny(s[1..], chars);
      assert forall i :: 1 <= i < |s| ==> s[i] == s[1..][i - 1];
      rest
  }

  /** `strings.Split(s, sep)` for a one-character separator: the pieces
      between consecutive separators; the empty string gives one empty piece. */
  function Split(s: string, sep: char): (parts: seq<string>)
    ensures |parts| >= 1
    ensures forall k :: 0 <= k < |parts| ==> sep !in parts[k]
    ensures sep in s <==> |parts| >= 2
    decreases |s|
  {
    if sep !in s then [s]
    else
      var i := IndexOf(s, sep);
      [s[..i]] + Split(s[i + 1..], sep)
  }

  /** `strings.Join(parts, sep)` for a one-character separator. */
  function Join(parts: seq<string>, sep: char): string
    requires |parts| >= 1
  {
    if |parts| == 1 then parts[0] else parts[0] + [sep] + Join(parts[1..], sep)
  }

  /** Joining pieces that do not contain the separator and splitting again
      gives back exactly the pieces, empty ones included. */
  lemma {:induction false} SplitOfJoin(parts: seq<string>, sep: char)
    requires |parts| >= 1
    requires forall k :: 0 <= k < |parts| ==> sep !in parts[k]
    ensures Split(Join(parts, sep), sep) == parts
    decreases |parts|
  {
    if |parts| > 1 {
      var p := parts[0];
      var tail := Join(parts[1..], sep);
      IndexOfAfter(p, sep, tail);
      SplitOfJoin(parts[1..], sep);
      assert parts == [p] + parts[1..];
    }
  }

  /** Go's `unicode.IsSpace`: the Latin-1 spaces and the Unicode White_Space
      code points above Latin-1. */
  predicate IsSpace(c: char)
  {
    var n := c as int;
    (9 <= n <= 13) || n == 32 || n == 0x85 || n == 0xA0 || n == 0x1680
    || (0x2000 <= n <= 0x200A) || n == 0x2028 || n == 0x2029 || n == 0x202F
    || n == 0x205F || n == 0x3000
  }

  function TrimLeftSpace(s: string): (t: string)
    ensures |t| <= |s| && t == s[|s| - |t|..]
    ensures t != [] ==> !IsSpace(t[0])
  {
    if s != [] && IsSpace(s[0]) then TrimLeftSpace(s[1..]) else s
  }

  function TrimRightSpace(s: string): (t: string)
    ensures |t| <= |s| && t == s[..|t|]
    ensures t != [] ==> !IsSpace(t[|t| - 1])
  {
    if s != [] && IsSpace(s[|s| - 1]) then TrimRightSpace(s[..|s| - 1]) else s
  }

  /** `strings.TrimSpace`: drops leading and trailing white space. */
  function TrimSpace(s: string): (t: string)
    ensures |t| <= |s|
    ensures t != [] ==> !IsSpace(t[0]) && !IsSpace(t[|t| - 1])
  {
    TrimRightSpace(TrimLeftSpace(s))
  }

  /** A string whose ends are not white space is left alone by TrimSpace. */
  lemma TrimSpaceOfTrimmed(s: string)
    requires s != [] ==> !IsSpace(s[0]) && !IsSpace(s[|s| - 1])
    ensures TrimSpace(s) == s
  {
  }
}

=== FILE: vectors.dfy ===
/** Concrete requests worked through the model: the size table of the
    server's own test, sample regions and rotations, rounding ties, a whole
    request turned into a command line, and an identifier with a space. */
module Vectors {
  import opened Results
  import opened Text
  import opened Numbers
  import opened Rounding
  import opened Params
  import opened GrammarFacts
  import opened Request
  import opened Args
  import opened Argv

  /** Two-digit numbers render as their two digits. */
  lemma TwoDigits(n: nat)
    requires 10 <= n < 100
    ensures FormatInt(n) == [DigitChar(n / 10), DigitChar(n % 10)]
    ensures ParseInt([DigitChar(n / 10), DigitChar(n % 10)]) == Some(n)
  {
    assert NatToString(n / 10) == [DigitChar(n / 10)];
    ParseIntOfFormatInt(n);
  }

  lemma ParseIntSamples()
    ensures ParseInt("10") == Some(10) && ParseInt("20") == Some(20) && ParseInt("30") == Some(30)
    ensures ParseInt("40") == Some(40) && ParseInt("50") == Some(50)
    ensures ParseInt("60") == Some(60) && ParseInt("70") == Some(70)
  {
    TwoDigits(10);
    assert [DigitChar(1), DigitChar(0)] == "10";
    TwoDigits(20);
    assert [DigitChar(2), DigitChar(0)] == "20";
    TwoDigits(30);
    assert [DigitChar(3), DigitChar(0)] == "30";
    TwoDigits(40);
    assert [DigitChar(4), DigitChar(0)] == "40";
    TwoDigits(50);
    assert [DigitChar(5), DigitChar(0)] == "50";
    TwoDigits(60);
    assert [DigitChar(6), DigitChar(0)] == "60";
    TwoDigits(70);
    assert [DigitChar(7), DigitChar(0)] == "70";
  }

  lemma SizeFullSample()
    ensures ParseSize("full") == Ok(Size.Full)
  {
  }

  lemma TenAsFloat()
    ensures ParseFloat("10") == Some(10.0)
  {
    var ten := [DigitChar(1), DigitChar(0)];
    ParseFloatOfDigits(ten);
    assert DigitsValue(ten) == 10;
    assert ten == "10";
  }

  lemma SizePercentSample()
    ensures ParseSize("pct:10") == Ok(Size.Percent(10.0))
  {
    TenAsFloat();
    SizePercentOf("10");
    assert "pct:" + "10" == "pct:10";
  }

  lemma SizeWidthSample()
    ensures ParseSize("20,") == Ok(Width(20))
  {
    ParseIntSamples();
    SizeWidthOnly("20");
    assert "20" + "," == "20,";
  }

  lemma SizeHeightSample()
    ensures ParseSize(",30") == Ok(Height(30))
  {
    ParseIntSamples();
    SizeHeightOnly("30");
    assert "," + "30" == ",30";
  }

  lemma SizeExactSample()
    ensures ParseSize("40,50") == Ok(Size.Exact(40, 50))
  {
    ParseIntSamples();
    SizeExactOfPair("40", "50");
    assert "40" + "," + "50" == "40,50";
  }

  lemma SizeBestFitSample()
    ensures ParseSize("!60,70") == Ok(BestFit(60, 70))
  {
    ParseIntSamples();
    SizeBestFitOfPair("60", "70");
    assert "!" + "60" + "," + "70" == "!60,70";
  }

  /** The size table of the server's test: each form parses to its value. */
  lemma SizeTable()
    ensures ParseSize("full") == Ok(Size.Full)
    ensures ParseSize("pct:10") == Ok(Size.Percent(10.0))
    ensures ParseSize("20,") == Ok(Width(20))
    ensures ParseSize(",30") == Ok(Height(30))
    ensures ParseSize("40,50") == Ok(Size.Exact(40, 50))
    ensures ParseSize("!60,70") == Ok(BestFit(60, 70))
  {
    SizeFullSample();
    SizePercentSample();
    SizeWidthSample();
    SizeHeightSample();
    SizeExactSample();
    SizeBestFitSample();
  }

  lemma RegionExactSample()
    ensures ParseRegion("10,20,30,40") == Ok(Region.Exact(10, 20, 30, 40))
  {
    ParseIntSamples();
    RegionExactOfFourIntegers("10", "20", "30", "40");
    assert "10" + "," + "20" == "10,20";
    assert "10,20" + "," + "30" == "10,20,30";
    assert "10,20,30" + "," + "40" == "10,20,30,40";
  }

  lemma RegionShortSample()
    ensures ParseRegion("10,20") == Ok(Region.Exact(10, 20, 0, 0))
  {
    ParseIntSamples();
    RegionExactOfTwoIntegers("10", "20");
    assert "10" + "," + "20" == "10,20";
  }

  /** The overrun: five integers make the server's region parser index past
      its four slots. */
  lemma RegionFiveSample()
    ensures ParseRegion("10,20,30,40,50") == Err(IndexOutOfRange)
    ensures ParseRegionChecked("10,20,30,40,50") == Err(CouldNotParseRegion)
  {
    ParseIntSamples();
    assert ParseInt("50") == Some(50) by {
      TwoDigits(50);
      assert [DigitChar(5), DigitChar(0)] == "50";
    }
    FiveIntegersOverrun("10", "20", "30", "40", "50");
    assert "10" + "," + "20" == "10,20";
    assert "10,20" + "," + "30" == "10,20,30";
    assert "10,20,30" + "," + "40" == "10,20,30,40";
    assert "10,20,30,40" + "," + "50" == "10,20,30,40,50";
  }

  /** The overrun reaches the request: as written it stops with the index
      panic, checked it is a region failure. */
  lemma RequestFiveSample(prefix: string, identifier: string, size: string, rotation: string,
                          quality: string, format: string)
    requires ParseIdentifier(identifier).Ok?
    ensures ParseImageRequest(prefix, identifier, "10,20,30,40,50", size, rotation, quality, format)
         == Err(IndexOutOfRange)
    ensures ParseImageRequestChecked(prefix, identifier, "10,20,30,40,50", size, rotation, quality, format)
         == Err(FailedRegion)
  {
    RegionFiveSample();
  }

  lemma MirroredSample()
    ensures ParseRotation("!45") == Ok(Mirrored(45.0))
  {
    var d45: string := "45";
    ParseFloatOfDigits(d45);
    assert DigitsValue(d45) == 45;
    var m := "!" + d45;
    assert HasPrefix(m, "!") && RotationPayload(m) == d45;
    RotationOfPayload(m, 45.0);
    assert m == "!45";
  }

  lemma TooLargeSample()
    ensures ParseRotation("400") == Err(DegreesOutOfRange)
  {
    var d400: string := "400";
    ParseFloatOfDigits(d400);
    assert d400[..2] == "40" && "40"[..1] == "4";
    assert DigitsValue(d400) == 400;
    assert !HasPrefix(d400, "!");
  }

  lemma NegativeSample()
    ensures ParseRotation("-5") == Err(DegreesOutOfRange)
  {
    var d5: string := "5";
    ParseFloatOfDigits(d5);
    assert DigitsValue(d5) == 5;
    var neg := "-" + d5;
    assert !HasPrefix(neg, "!");
    assert SplitSign(neg) == (true, d5);
    assert neg == "-5";
  }

  lemma WordSample()
    ensures ParseRotation("left") == Err(CouldNotParseRotation)
  {
    assert SplitSign("left") == (false, "left");
    assert !AllDigits("left");
  }

  /** An optional `!`, then degrees within [0, 360]. */
  lemma RotationSamples()
    ensures ParseRotation("!45") == Ok(Mirrored(45.0))
    ensures ParseRotation("400") == Err(DegreesOutOfRange)
    ensures ParseRotation("-5") == Err(DegreesOutOfRange)
    ensures ParseRotation("left") == Err(CouldNotParseRotation)
  {
    MirroredSample();
    TooLargeSample();
    NegativeSample();
    WordSample();
  }

  /** Ties go away from zero, on both sides. */
  lemma RoundSamples()
    ensures Round(2.5) == 3 && Round(-2.5) == -3
    ensures Round(0.4) == 0 && Round(-0.4) == 0
    ensures PercentOffset(1000, 33.35) == 334
  {
  }

  /** A plain request: the whole image at full size, unrotated, in its
      default quality, with no memory limit. */
  lemma PlainRequestSample()
    ensures forall stats: WidthHeight ::
      BuildArgs(ImageReq("iiif", "cat", Region.Full, Size.Full, Standard(0.0), "jpg", "default"), Ok(stats), "")
        == Ok(["images/cat.jpg", "jpg:-"])
  {
    var req := ImageReq("iiif", "cat", Region.Full, Size.Full, Standard(0.0), "jpg", "default");
    forall stats: WidthHeight
      ensures BuildArgs(req, Ok(stats), "") == Ok(["images/cat.jpg", "jpg:-"])
    {
      PlainRequestArgs(req, stats);
      assert ToPath(req) == "images/" + "cat" + "." + "jpg" == "images/cat.jpg";
      assert req.format + ":-" == "jpg:-";
    }
  }

  /** The same request read from its URL segments. */
  lemma PlainRequestParse()
    ensures ParseImageRequest("iiif", "cat", "full", "full", "0", "default", "jpg")
         == Ok(ImageReq("iiif", "cat", Region.Full, Size.Full, Standard(0.0), "jpg", "default"))
  {
    var zero := "0";
    ParseFloatOfDigits(zero);
    assert ParseRotation(zero) == Ok(Standard(0.0));
    assert ParseIdentifier("cat") == Ok("cat");
    assert ParseRegion("full") == Ok(Region.Full);
    assert ParseSize("full") == Ok(Size.Full);
    assert ParseQuality("default") == Ok("default");
    assert ParseFormat("jpg") == Ok("jpg");
  }

  /** The identifier check lets a space through. */
  lemma SpacedIdentifierAccepted()
    ensures ParseIdentifier("a b") == Ok("a b")
  {
  }

  /** A plain request for the identifier `a b`: the server's split hands
      `convert` the two halves of the path. */
  lemma SpacedIdentifierSample(req: ImageReq, stats: WidthHeight)
    requires req.identifier == "a b" && ' ' !in req.format
    requires req.quality == "default"
    requires req.region == Region.Full && req.size == Size.Full && req.rotation == Standard(0.0)
    ensures ServerArgv(req, Ok(stats), "") == Ok(["images/a", "b." + req.format, req.format + ":-"])
  {
    var a: string := "a";
    var b: string := "b";
    var p1: string := "images/" + a;
    var p2: string := b + ".";
    assert p1 == "images/a" && p2 == "b.";
    assert req.identifier == a + " " + b;
    PlainSpacedArgv(req, stats, a, b);
    assert b + "." + req.format == p2 + req.format;
  }
}
